=== FILE: README.md ===
# Hades route manager, modelled in Dafny

The route manager keeps a tree of save-game snapshots for the game Hades.
A *route* is a directory under `./Routes` that holds one primary save file,
`Profile<d>.sav`, copied from one of the game's save slots. A *snapshot* is the
route directory or any directory nested below it. Each non-root snapshot holds the
game's companion files `Profile<d>_Temp.sav` and `Profile<d>.v.sav`.
The user can do four things:

- save the live game as a new child of the current snapshot;
- move up to the parent snapshot or down to a child;
- load a snapshot back into the game's live save directory, which also patches the
  checkpoint descriptor `Profile<d>.sjson`;
- switch to another route.

The model covers `routemanager.py`, apart from its console I/O:

- `paths.dfy` (module `Paths`): paths as sequences of components: `/`, `.parent`,
  `.name` and `relative_to`.
- `text.dfy` (module `Text`): Python's `<` on `str`, used by `sorted`, and
  `str.replace`. The replace is proved to replace the leftmost occurrence and resume
  after it, and to leave a text without the pattern unchanged. A lemma shows that
  removing a pattern is not idempotent.
- `files.dfy` (module `Files`): the filesystem, a map from paths to `Dir` or
  `File(bytes)`. It holds the operations `read_bytes`, `write_bytes`,
  `mkdir(exist_ok=True)` and `iterdir`, and the exceptions they raise, as an `IOError`
  value.
- `naming.dfy` (module `Naming`): `ROUTES_PATH`, `HADES_SAVES_PATH`, the
  `^Profile\d\.sav$` filter, `current_save_name` and the three derived names.
- `listing.dfy` (module `Listing`): `{Text, Path}` items, `sorted_by`, `get_subdirs`,
  `get_saves` and the selection made by `prompt_choice`.
- `store.dfy` (module `Store`): `copy_file`, `create_new_route`,
  `save_child_snapshot_as`'s filesystem steps, `load_current_snapshot` and
  `force_snapshot_valid`. Each step that can raise returns the filesystem together
  with the error that stopped it. The effects of earlier steps are kept, as they are
  after a Python exception.
- `menu.dfy` (module `Menu`): `ROUTE_MENU`, `TEXT_ROUTE_MENU` and the filter on each
  entry's `"Predicate"`.
- `manager.dfy` (module `Manager`): the globals `CURRENT_ROUTE`, `CURRENT_SNAPSHOT`
  and `EXIT` as the fields of class `RouteManager`. The navigation functions are its
  methods, and one pass of the main loop is `ChooseAction` or `ChooseRoute`.
  `Valid()` is the class invariant: the snapshot is set exactly when the route is,
  and it lies at or below the route. Every method that the menus can reach keeps
  `Valid()`.

The headline property is `Store.SaveThenLoadRestoresLiveFiles`. Suppose a child
snapshot is saved, and the game is then played on, which changes only the entries of
the live save directory. Loading that child afterwards puts back the live temp and
v files exactly as they were when the child was saved. It also puts back the live
primary file with the route's bytes.

Three behaviours are modelled as the code has them, though a reader might expect
otherwise:

- `force_snapshot_valid` reads the descriptor without a guard. A missing
  `Profile<d>.sjson` is therefore an error here, not a skipped step.
- `mkdir(exist_ok=True)` followed by a copy overwrites an existing route's profile
  file or an existing child's files. No collision error is raised.
- `return_to_parent` and `load_current_snapshot` do not check `has_parent`
  themselves; only the menu gating prevents their use. The model states this as a
  precondition of `Perform`. `ReturnToParent` states what happens without the check:
  at the route root it leaves the route.

## Model

| member | source | states |
|---|---|---|
| Paths.IsComponent | routemanager.py:116 | the names the model accepts for a new route or snapshot, because appending one names a new entry directly inside the directory: not empty, not `.` (pathlib collapses it), not `..` (the OS resolves it to the parent), no `/`; the save and create operations require it |
| Paths.Parent | routemanager.py:168 | `.parent` is a prefix of the path, one component shorter unless the path is the root |
| Paths.RelativeParts | routemanager.py:35 | the parts of `relative_to(base)` appended to `base` give back the path |
| Paths.ParentOfJoin | routemanager.py:166-168 | going up from `p / name` gives `p`, and the name of `p / name` is `name` |
| Paths.ParentStaysBelow | routemanager.py:166-168 | the parent of a path strictly below `base` is still at or below `base`, with one part fewer relative to it |
| Text.LessIrreflexive | routemanager.py:11-12 | no string sorts before itself |
| Text.LessTrichotomy | routemanager.py:11-12 | any two strings are equal or one sorts before the other |
| Text.LessTransitive | routemanager.py:11-12 | the string order used by `sorted` is transitive |
| Text.LessAsymmetric | routemanager.py:11-12 | two strings never sort before each other |
| Text.LessOrEqualTotalOrder | routemanager.py:11-12 | at-or-before is a total order: total, antisymmetric and transitive |
| Text.Less | routemanager.py:12 | Python's `<` on `str`, code point by code point with a proper prefix first; a strict total order by `LessIrreflexive`, `LessTrichotomy` and `LessTransitive` |
| Text.ReplaceAll | routemanager.py:96 | `str.replace`: its result is pinned down by `ReplaceAbsent` and `ReplaceAtFirstOccurrence` |
| Text.ReplaceAbsent | routemanager.py:96 | `replace` leaves a text in which the pattern does not occur unchanged |
| Text.ReplaceAtFirstOccurrence | routemanager.py:96 | `replace` keeps the text before the leftmost occurrence, substitutes it, and continues after it |
| Text.RemovalNotIdempotent | routemanager.py:96 | removing a pattern twice can differ from removing it once, because a removal can splice a new occurrence |
| Files.ReadBytes | routemanager.py:47 | `read_bytes`: a file's bytes; `IsADirectory` on a directory, `FileNotFound` or `NotADirectory` on a missing path |
| Files.WriteBytes | routemanager.py:47 | `write_bytes`: creates or truncates a file whose parent is a directory; `IsADirectory` on a directory; its effect is stated by `CopyFileEffect` |
| Files.CopyFile | routemanager.py:46-47 | `copy_file`: read, then write; its effect is stated by `CopyFileEffect` |
| Files.MakeDir | routemanager.py:117 | `mkdir(exist_ok=True)`; its effect is stated by `MakeDirEffect` |
| Files.CopyFileEffect | routemanager.py:46-47 | `copy_file` succeeds exactly when the source is a file and the destination can be written; it then puts the source's bytes there and changes nothing else |
| Files.MakeDirEffect | routemanager.py:117 | `mkdir(exist_ok=True)` succeeds exactly for an existing directory, or a free path whose parent is a directory; it then leaves a directory there and changes nothing else |
| Files.ChildNames | routemanager.py:20 | a name is a child name of `dir` exactly when `dir / name` exists |
| Files.MinName | routemanager.py:20 | the chosen name is in the set and at or before every other name in it |
| Files.MinNameExists | routemanager.py:20 | every non-empty set of names has a least one |
| Files.SortedNamesSpec | routemanager.py:20 | the sorted names list each name of the set exactly once, strictly ascending |
| Files.ChildPathsMembers | routemanager.py:20 | joining the directory with its child names lists exactly its direct entries |
| Files.ChildPathsOrdered | routemanager.py:20 | those entries are distinct and ascend by name |
| Files.IterDir | routemanager.py:20 | `iterdir` succeeds exactly on a directory |
| Files.IterDirSpec | routemanager.py:20 | the listing of a directory holds exactly its direct entries, each once, in ascending name order |
| Files.IterDirAgree | routemanager.py:30 | two filesystems that agree on a directory, its ancestors and its entries give the same listing |
| Naming.IsSaveName | routemanager.py:27 | `re.search(r'^Profile\d\.sav$', name)`: `Profile`, one digit, `.sav`, and at most a final newline, which `$` tolerates |
| Naming.TempName | routemanager.py:37-38 | `.sav` replaced by `_Temp.sav`; its value for a save name is stated by `DerivedNames` |
| Naming.VName | routemanager.py:40-41 | `.sav` replaced by `.v.sav`; its value for a save name is stated by `DerivedNames` |
| Naming.SjsonName | routemanager.py:43-44 | `.sav` replaced by `.sjson`; its value for a save name is stated by `DerivedNames` |
| Naming.SuffixSubstitution | routemanager.py:37-44 | in a save name the only `.sav` is at index 8, so a replace substitutes exactly that suffix |
| Naming.DerivedNames | routemanager.py:37-44 | `Profile<d>.sav` gives `Profile<d>_Temp.sav`, `Profile<d>.v.sav` and `Profile<d>.sjson` |
| Naming.DerivedNamesDistinct | routemanager.py:37-44 | the four names of one slot differ from each other, and no derived name is a save name |
| Naming.DerivedNamesInjective | routemanager.py:37-44 | different save names give different temp, v and descriptor names |
| Naming.FirstSaveName | routemanager.py:30-32 | the loop returning the first matching name; stated by `FirstSaveNameSpec` |
| Naming.CurrentSaveName | routemanager.py:29-32 | `current_save_name()`; stated by `CurrentSaveNameSpec` |
| Naming.FirstSaveNameSpec | routemanager.py:29-32 | the scan fails exactly when no entry has a save name; otherwise it returns a save name that no earlier entry has |
| Naming.CurrentSaveNameSpec | routemanager.py:29-32 | the name found matches the pattern, is an entry of the route, and is the least such name; in a route directory it fails exactly when no entry matches |
| Naming.CurrentSaveNameFound | routemanager.py:29-32 | a save name that is found matches the pattern and is an entry of the route |
| Naming.FirstSaveNameIsLeast | routemanager.py:29-32 | over a listing in ascending name order, the first match sorts at or before every matching entry |
| Naming.CurrentNameAgree | routemanager.py:29-44 | the save name and the derived names depend only on the route's own listing |
| Listing.Insert | routemanager.py:11-12 | inserting adds exactly one item and keeps a sorted list sorted, or strictly sorted |
| Listing.SortedBy | routemanager.py:11-12 | `sorted_by` returns a permutation of its input that ascends by `Text`, strictly when the texts are distinct |
| Listing.StrictlyAscendingUnique | routemanager.py:11-12 | two strictly ascending lists of the same items are equal |
| Listing.DirItems | routemanager.py:18-21 | the comprehension keeps exactly the entries that are directories, each as `{Text: name, Path: d}`, without duplicates |
| Listing.ChildItemsTextsDistinct | routemanager.py:18-21 | the items of distinct entries of one directory have distinct texts |
| Listing.GetSubdirs | routemanager.py:14-21 | `get_subdirs(path)`; stated by `GetSubdirsSpec`, `SubdirsNonEmpty` and `ListingOrderIrrelevant` |
| Listing.GetSubdirsSpec | routemanager.py:14-21 | `get_subdirs` gives `[]` for no path and fails exactly on a non-directory; otherwise it lists exactly the subdirectories, each under its name, strictly ascending |
| Listing.SubdirsNonEmpty | routemanager.py:160-164 | `get_subdirs` of a directory is non-empty exactly when the directory has a subdirectory |
| Listing.SortedChildItems | routemanager.py:18-21 | sorting the directory items of any listing of a directory's entries gives its subdirectories, strictly ascending |
| Listing.ListingOrderIrrelevant | routemanager.py:14-21 | whatever order `iterdir` enumerates the entries in, `get_subdirs` gives the same list |
| Listing.SaveItems | routemanager.py:24-27 | the comprehension keeps exactly the entries whose name matches `^Profile\d\.sav$` |
| Listing.GetSaves | routemanager.py:23-27 | every slot listed has a path |
| Listing.GetSavesSpec | routemanager.py:23-27 | `get_saves` fails exactly when the save directory is missing; otherwise it lists exactly its entries with a save name, ascending by name |
| Listing.PromptChoice | routemanager.py:49-71 | numbers 1 to n pick the n-th item, n+1 picks the alternative if there is one, and anything else picks nothing |
| Store.PatchDescriptor | routemanager.py:96 | the text replacement of `force_snapshot_valid`; stated by `PatchKeepsCleanDescriptor`, `PatchRemovesFirstLine` and `PatchNotIdempotent` |
| Store.PatchFile | routemanager.py:94-97 | read, patch and write back one file; stated by `PatchFileSpec` |
| Store.ForceSnapshotValid | routemanager.py:93-97 | `force_snapshot_valid()` on the live descriptor named after the route's save; part of what `LoadSnapshotSpec` states |
| Store.CopyNamed | routemanager.py:100-110 | one `copy_file` of a file named after the route's save name; stated by `CopyStep` and `LiveCopyStep` |
| Store.LoadSnapshot | routemanager.py:99-112 | `load_current_snapshot()`; stated by `LoadSnapshotSpec` and `LoadCopies` |
| Store.LoadSnapshotFiles | routemanager.py:104-112 | the load once the primary file is copied; stated by `LoadCopies` |
| Store.LoadSnapshotV | routemanager.py:108-112 | the load once the temp file is copied; stated by `LoadCopies` |
| Store.SaveChild | routemanager.py:114-125 | the filesystem part of `save_child_snapshot_as`; stated by `SaveChildSpec` |
| Store.SaveChildV | routemanager.py:123-125 | the save once the temp file is copied; stated by `SaveChildSpec` |
| Store.CreateNewRoute | routemanager.py:79-91 | `create_new_route()`; stated by `CreateNewRouteSpec` |
| Store.CreateFromSlot | routemanager.py:86-91 | the creation once a slot is chosen; stated by `CreateFromSlotSpec` |
| Store.PatchKeepsCleanDescriptor | routemanager.py:93-97 | a descriptor without `  ValidCheckpoint = false\n` is left exactly as it was |
| Store.PatchRemovesFirstLine | routemanager.py:93-97 | the first occurrence of the line is cut out, the text around it is kept, and the rest is patched in turn |
| Store.PatchNotIdempotent | routemanager.py:96 | there is a descriptor for which patching twice differs from patching once |
| Store.CreateNewRouteSpec | routemanager.py:79-91 | a missing save directory is the error; a number that picks no slot does nothing and returns no route; a picked slot is a save-named entry of the live directory, and it is copied |
| Store.CreateFromSlotSpec | routemanager.py:86-91 | `Routes/name` is returned exactly when it could be made and the slot copied; the route then holds the slot's bytes under the slot's name, and nothing else changed |
| Store.CopyStep | routemanager.py:119-121 | a copy of a file named after the route's save name writes that one file and leaves the route's save name as it was |
| Store.LiveCopyStep | routemanager.py:100-110 | the same for a copy into the live save directory |
| Store.PatchFileSpec | routemanager.py:93-97 | the patch succeeds exactly on a file, and then replaces its bytes by their patched form; a failure changes nothing |
| Store.LoadCopies | routemanager.py:99-110 | when the three copies can run, they leave the live directory holding the route's primary file and the snapshot's temp and v files, before the patch |
| Store.LoadSnapshotSpec | routemanager.py:99-112 | a load leaves the live primary, temp and v files with the route's and snapshot's bytes; it succeeds exactly when the descriptor exists, and then leaves it patched; nothing else changes |
| Store.SaveChildSpec | routemanager.py:114-125 | a successful save makes the child directory and gives it the live temp and v bytes; it changes nothing else, and never copies the primary file |
| Store.SavedChildSurvivesPlay | routemanager.py:99-127 | after a save and play that changes only the live directory, the child still holds the saved bytes, the route still holds its primary file, and a load can run |
| Store.SaveThenLoadRestoresLiveFiles | routemanager.py:99-127 | saving a child, playing on, and loading that child restores the live temp and v bytes as saved and the live primary file from the route |
| Menu.RouteMenu | routemanager.py:183-190 | `ROUTE_MENU`: load and return, both gated by `has_parent` |
| Menu.TextRouteMenu | routemanager.py:192-202 | `TEXT_ROUTE_MENU`: `ROUTE_MENU` followed by save, switch, select child (gated by `has_child`) and exit; stated by `TextRouteMenuGates` |
| Menu.VisibleEntries | routemanager.py:212-215 | an entry is kept exactly when it is in the menu and has no predicate or a true one |
| Menu.VisibleEntriesAppend | routemanager.py:212-215 | filtering a concatenation filters each part and keeps them in order |
| Menu.AllShownKept | routemanager.py:212-215 | a menu whose every entry is shown comes back whole and in order |
| Menu.TextRouteMenuGates | routemanager.py:183-202 | in `TEXT_ROUTE_MENU` the load and return entries are exactly those gated by `has_parent`, and the child selection is the one gated by `has_child` |
| Menu.ParentGatedEntries | routemanager.py:183-215 | with a parent, the menu begins with "Load this snapshot." and "Return to parent."; without one, neither is offered |
| Menu.UngatedEntriesAlwaysShown | routemanager.py:192-202 | entries without a predicate are always offered, and "Select a child snapshot." is offered exactly when `has_child` holds |
| Manager.RouteManager.Valid | routemanager.py:170-174 | the class invariant: the snapshot is set exactly when the route is, and lies at or below it; `set_current_route` sets both together, and the moves the menus offer keep it |
| Manager.RouteManager.constructor | routemanager.py:4-6 | start-up state: no route, no snapshot, not exiting; the invariant holds |
| Manager.RouteManager.Depth | routemanager.py:34-35 | `current_depth` is at least 1, and is exactly 1 at the route root |
| Manager.RouteManager.HasParent | routemanager.py:154-158 | `has_parent` is false with no snapshot; otherwise it holds exactly when the depth exceeds 1 |
| Manager.RouteManager.HasChild | routemanager.py:160-164 | `has_child` is false with no snapshot and fails when the snapshot is not a directory; otherwise it holds exactly when the snapshot has a subdirectory |
| Manager.RouteManager.SetCurrentRoute | routemanager.py:170-174 | route and snapshot both become the given path; nothing else changes |
| Manager.RouteManager.SwitchRoutes | routemanager.py:176-177 | route and snapshot both become none; nothing else changes |
| Manager.RouteManager.SetChildSnapshot | routemanager.py:133-138 | the snapshot becomes the child's path, and nothing happens for no child or a child without a path; only the snapshot changes |
| Manager.RouteManager.ReturnToParent | routemanager.py:166-168 | the snapshot becomes its parent; with a parent it stays under the route and the depth drops by 1, and at the root of a non-root route it leaves the route |
| Manager.RouteManager.SaveChildSnapshotAs | routemanager.py:114-127 | the filesystem steps of a save are run; the snapshot advances to the new child only when they succeed, and the depth then grows by 1 |
| Manager.RouteManager.LoadCurrentSnapshot | routemanager.py:99-112 | the filesystem steps of a load are run; route and snapshot stay |
| Manager.RouteManager.CreateNewRoute | routemanager.py:79-91 | the filesystem steps of route creation are run, and the new route is returned; navigation stays |
| Manager.RouteManager.ChooseChildSnapshot | routemanager.py:140-152 | a single subdirectory is taken; otherwise the numbered one, with "None of the above." or an unknown number staying put; a move goes exactly one level down into a directory |
| Manager.RouteManager.ExitRouteManager | routemanager.py:179-181 | `EXIT` becomes true; nothing else changes |
| Manager.RouteManager.Perform | routemanager.py:216-218 | running a menu action does what its function does: load and save run their filesystem steps and return their error, a save moves to the new child exactly on success with depth one more, return goes up one level with depth one less, switch clears the route, exit sets `EXIT`; the invariant is kept, given that the parent-gated actions run only with a parent |
| Manager.RouteManager.ChooseAction | routemanager.py:210-218 | one pass with a route: whatever number is typed, the invariant still holds afterwards; a failing `has_child` is the error and changes nothing; a number that picks no offered entry changes nothing |
| Manager.RouteManager.ChooseRoute | routemanager.py:219-229 | one pass without a route: a number picks a route, the last picks a newly created one, and anything else changes nothing; route and snapshot end equal |

## Left out

- `gui.py` is not part of this model. It is presentation only, and it calls
  functions that `routemanager.py` does not define.
- Console I/O is left out. The `print` calls are dropped. The line `input` reads in
  `prompt_choice` is an integer parameter; a line that is not a number behaves like a
  number out of range. `prompt_filename` and its retry loop are replaced by a
  `filename` parameter.
- The main loop itself (`while not EXIT`) is left out. One pass of it is
  `ChooseAction` or `ChooseRoute`, and `EXIT` is a field the caller can test. In
  the source an exception escapes the loop (routemanager.py:209) and ends the
  program; `ChooseAction` and `ChooseRoute` instead return the error and leave
  `exit` unchanged, so a caller running several passes must stop on an error.
- `current_position_text` is left out, and so is its error path. It formats
  `current_save_name()` and `current_depth()` for printing (routemanager.py:205,
  211), so each pass with a route lists the route with `iterdir`
  (routemanager.py:30). That raises when the route is missing or is not a
  directory, before any menu is built; `ChooseAction` does not model this error.
- `Path.home()` and the platform save path are left out. `HADES_SAVES_PATH` is a
  constant path whose first component stands for the home directory.
- Relative paths, `..`, symbolic links and the aliasing `samefile` can see through
  are left out. Paths are normalised component lists, and `samefile` is equality.
- The exception `samefile` raises for a missing path is left out. `has_parent` never
  fails in the model.
- `iterdir` order is left out. Python leaves it unspecified; the model lists entries
  in ascending name order. `get_subdirs` is proved not to depend on that order.
  `current_save_name` returns the first match, which is the least matching name in
  this order.
- Only ASCII digits are modelled for `\d`. Python's `re` also accepts other Unicode
  decimal digits.
- Text encoding and newline translation in `read_text` and `write_text` are left
  out. The descriptor's text is its bytes, and the removed line is compared as ASCII
  bytes.
- Route and snapshot names are single path components (`Paths.IsComponent`).
  `prompt_filename` never returns `""`: its pattern needs at least one character, so
  it asks again. It does accept `"."`, `".."` and names containing `/`, and the
  model does not describe what these do:
  - `"."`: pathlib's `/` gives back the same directory, so a save overwrites the
    current snapshot's own files and stays there.
  - `".."`: the OS resolves it to the parent, so a save writes into the parent
    directory.
  - `"a/b"`: `mkdir(exist_ok=True)` has no `parents=True` (routemanager.py:87, 117),
    so it raises FileNotFoundError unless `a` already exists, and otherwise makes a
    grandchild.
  - a name starting with `/`: pathlib's `/` drops the route or snapshot path and
    gives an absolute path.
- Store.SaveChild, Store.CreateNewRoute, Manager.RouteManager.SaveChildSnapshotAs,
  Manager.RouteManager.CreateNewRoute, Manager.RouteManager.ChooseAction and
  Manager.RouteManager.ChooseRoute: require the typed name to be one path component,
  for the reason above.
- When `current_save_name()` finds nothing, Python returns `None`, and the caller
  then raises. This is modelled as the error `NoSaveFile`.
- Listing.SortedBy: states a sorted permutation, not the stability of Python's sort.
  `Insert` places an item before the equal items that follow it, but no lemma states
  stability.
- Store.SaveThenLoadRestoresLiveFiles: holds under stated premises:
  - the route does not lie inside the live save directory;
  - the new child is not that directory;
  - the directory exists;
  - the save succeeded;
  - the play changed only entries of the live directory and left them files;
  - the route's primary file can be copied.
- Store.LoadSnapshotSpec: holds under stated premises:
  - the route does not lie inside the live save directory;
  - the live save directory exists;
  - the first copy succeeds.

  It states the result only when the other two copies can run as well; otherwise it
  states only that the route's save name exists.
- Manager.RouteManager.ChooseAction: for a number that picks an entry, it states only
  the invariant. What the action does is stated by `Perform`.
- Manager.RouteManager.Perform: for "Select a child snapshot.", it states only that
  the route and filesystem stay. The move itself is stated by `ChooseChildSnapshot`.
  A save requires the name to be one path component.
- Manager.RouteManager.LoadCurrentSnapshot: requires the invariant and a snapshot.
  The source would raise on no route; the menus never call it then.
- Manager.RouteManager.ReturnToParent: requires the invariant and a snapshot. The source raises on
  none; the menus never offer it then.
- Manager.RouteManager.SaveChildSnapshotAs: requires the invariant and a snapshot.
  The menus offer it only with a route.

=== FILE: files.dfy ===
/** The filesystem the route manager works on, as a map from normalised
    paths to directories and files, with the `pathlib` operations it calls
    (`read_bytes`, `write_bytes`, `mkdir(exist_ok=True)`, `iterdir`) and
    the exceptions they raise. */
module Files {
  import opened Wrappers
  import opened Paths
  import Text

  type Byte = b: int | 0 <= b < 256

  datatype Node = Dir | File(data: seq<Byte>)

  /** Every entry other than the root, which always exists as a directory. */
  type FileSystem = map<Path, Node>

  /** The exceptions the route manager's file operations can raise. */
  datatype IOError =
    | FileNotFound(path: Path)
    | FileExists(path: Path)
    | IsADirectory(path: Path)
    | NotADirectory(path: Path)
      /** `current_save_name()` found no save file in the route and returned
          `None`, which every caller then fails to use. */
    | NoSaveFile(route: Path)

  predicate IsDir(fs: FileSystem, p: Path)
  {
    p == [] || (p in fs && fs[p].Dir?)
  }

  predicate IsFile(fs: FileSystem, p: Path)
  {
    p != [] && p in fs && fs[p].File?
  }

  /** The error the operating system reports for a path that names nothing:
      a file in place of one of its directories, or nothing at all. */
  function MissingError(fs: FileSystem, p: Path): IOError
  {
    if exists k :: 0 < k < |p| && IsFile(fs, p[..k]) then NotADirectory(p) else FileNotFound(p)
  }

  /** `p.read_bytes()`. */
  function ReadBytes(fs: FileSystem, p: Path): Result<seq<Byte>, IOError>
  {
    if IsFile(fs, p) then Ok(fs[p].data)
    else if IsDir(fs, p) then Err(IsADirectory(p))
    else Err(MissingError(fs, p))
  }

  /** `p.write_bytes(data)`: creates or truncates a file in an existing directory. */
  function WriteBytes(fs: FileSystem, p: Path, data: seq<Byte>): Result<FileSystem, IOError>
  {
    if IsDir(fs, p) then Err(IsADirectory(p))
    else if IsFile(fs, p) || IsDir(fs, Parent(p)) then Ok(fs[p := File(data)])
    else Err(MissingError(fs, p))
  }

  /** `p.mkdir(exist_ok=True)`: an existing directory is fine, an existing
      file is not, and the parent must already be a directory. */
  function MakeDir(fs: FileSystem, p: Path): Result<FileSystem, IOError>
  {
    if IsDir(fs, p) then Ok(fs)
    else if IsFile(fs, p) then Err(FileExists(p))
    else if IsDir(fs, Parent(p)) then Ok(fs[p := Dir])
    else Err(MissingError(fs, p))
  }

  /** `copy_file(from, to)`: `to.write_bytes(from.read_bytes())`; the read
      happens, and can fail, first. */
  function CopyFile(fs: FileSystem, from: Path, to: Path): Result<FileSystem, IOError>
  {
    match ReadBytes(fs, from)
    case Err(e) => Err(e)
    case Ok(data) => WriteBytes(fs, to, data)
  }

  /** A copy that succeeds puts the source's bytes at the destination and
      changes nothing else; it fails exactly when the source is not a file
      or the destination cannot be written. */
  lemma CopyFileEffect(fs: FileSystem, from: Path, to: Path)
    ensures CopyFile(fs, from, to).Ok? <==>
              IsFile(fs, from) && !IsDir(fs, to) && (IsFile(fs, to) || IsDir(fs, Parent(to)))
    ensures CopyFile(fs, from, to).Ok? ==>
              var fs' := CopyFile(fs, from, to).value;
              ReadBytes(fs', to) == ReadBytes(fs, from) &&
              forall q :: q != to ==> (q in fs' <==> q in fs) && (q in fs ==> fs'[q] == fs[q])
  {
  }

  lemma MakeDirEffect(fs: FileSystem, p: Path)
    ensures MakeDir(fs, p).Ok? <==> IsDir(fs, p) || (!IsFile(fs, p) && IsDir(fs, Parent(p)))
    ensures MakeDir(fs, p).Ok? ==>
              var fs' := MakeDir(fs, p).value;
              IsDir(fs', p) && forall q :: q != p ==> (q in fs' <==> q in fs) && (q in fs ==> fs'[q] == fs[q])
  {
  }

  /** The names of the entries directly inside `dir`. */
  function ChildNames(fs: FileSystem, dir: Path): (names: set<string>)
    ensures forall n {:trigger n in names} :: n in names <==> dir + [n] in fs
  {
    var names := set p | p in fs && DirectlyIn(p, dir) :: p[|dir|];
    assert forall n :: dir + [n] in fs ==> n in names by {
      forall n | dir + [n] in fs ensures n in names {
        var p := dir + [n];
        assert DirectlyIn(p, dir) && p[|dir|] == n;
      }
    }
    assert forall n :: n in names ==> dir + [n] in fs by {
      forall n | n in names ensures dir + [n] in fs {
        var p :| p in fs && DirectlyIn(p, dir) && p[|dir|] == n;
        assert p == dir + [n];
      }
    }
    names
  }

  lemma {:induction false} MinNameExists(names: set<string>)
    requires names != {}
    ensures exists m :: m in names && forall n :: n in names ==> Text.LessOrEqual(m, n)
    decreases |names|
  {
    var x :| x in names;
    if names == {x} {
      assert forall n :: n in names ==> Text.LessOrEqual(x, n);
    } else {
      MinNameExists(names - {x});
      var m :| m in names - {x} && forall n :: n in names - {x} ==> Text.LessOrEqual(m, n);
      LesserOfTwo(names, x, m);
    }
  }

  /** Adding `x` back to a set whose least name is `m` leaves the lesser of
      the two least. */
  lemma LesserOfTwo(names: set<string>, x: string, m: string)
    requires x in names && m in names - {x}
    requires forall n :: n in names - {x} ==> Text.LessOrEqual(m, n)
    ensures exists k :: k in names && forall n :: n in names ==> Text.LessOrEqual(k, n)
  {
    Text.LessTrichotomy(m, x);
    if Text.Less(m, x) || m == x {
      assert forall n :: n in names ==> Text.LessOrEqual(m, n);
    } else {
      forall n | n in names ensures Text.LessOrEqual(x, n) {
        if n != x && n != m {
          assert Text.LessOrEqual(m, n);
          if Text.Less(m, n) {
            Text.LessTransitive(x, m, n);
          }
        }
      }
    }
  }

  /** The least name in a non-empty set of names. */
  function MinName(names: set<string>): (m: string)
    requires names != {}
    ensures m in names && forall n :: n in names ==> Text.LessOrEqual(m, n)
  {
    MinNameExists(names);
    Text.LessOrEqualTotalOrder();
    var m :| m in names && forall n :: n in names ==> Text.LessOrEqual(m, n);
    m
  }

  /** A set of names in ascending order. */
  function SortedNames(names: set<string>): seq<string>
    decreases |names|
  {
    if names == {} then []
    else
      var m := MinName(names);
      [m] + SortedNames(names - {m})
  }

  /** Each name is listed once, and the list ascends. */
  lemma {:induction false} SortedNamesSpec(names: set<string>)
    ensures var r := SortedNames(names);
            && |r| == |names|
            && (forall n :: n in r <==> n in names)
            && (forall i, j :: 0 <= i < j < |r| ==> Text.Less(r[i], r[j]))
    decreases |names|
  {
    if names != {} {
      var m := MinName(names);
      var rest := SortedNames(names - {m});
      SortedNamesSpec(names - {m});
      assert SortedNames(names) == [m] + rest;
      forall j | 0 <= j < |rest| ensures Text.Less(m, rest[j]) {
        assert rest[j] in names - {m};
        assert Text.LessOrEqual(m, rest[j]);
      }
      HeadThenAscending(m, rest);
    }
  }

  /** A name below every entry of an ascending list, put in front of it. */
  lemma HeadThenAscending(m: string, rest: seq<string>)
    requires forall j :: 0 <= j < |rest| ==> Text.Less(m, rest[j])
    requires forall i, j :: 0 <= i < j < |rest| ==> Text.Less(rest[i], rest[j])
    ensures forall i, j :: 0 <= i < j < |[m] + rest| ==> Text.Less(([m] + rest)[i], ([m] + rest)[j])
  {
    var r := [m] + rest;
    forall i, j | 0 <= i < j < |r| ensures Text.Less(r[i], r[j]) {
      if i == 0 {
        assert r[j] == rest[j - 1];
      } else {
        assert r[i] == rest[i - 1] && r[j] == rest[j - 1];
      }
    }
  }

  /** The paths `dir + [n]` for the names `n`, in order. */
  function ChildPaths(dir: Path, names: seq<string>): (r: seq<Path>)
    ensures |r| == |names|
  {
    seq(|names|, i requires 0 <= i < |names| => dir + [names[i]])
  }

  lemma ChildPathsSpec(dir: Path, names: seq<string>)
    ensures forall i :: 0 <= i < |names| ==>
              ChildPaths(dir, names)[i] == dir + [names[i]] && Name(ChildPaths(dir, names)[i]) == names[i]
  {
  }

  /** Listing the names of the direct entries of `dir` lists exactly those entries. */
  lemma ChildPathsMembers(fs: FileSystem, dir: Path, names: seq<string>)
    requires forall n :: n in names <==> dir + [n] in fs
    ensures forall q :: q in ChildPaths(dir, names) <==> q in fs && DirectlyIn(q, dir)
  {
    var entries := ChildPaths(dir, names);
    ChildPathsSpec(dir, names);
    forall q | q in entries ensures q in fs && DirectlyIn(q, dir) {
      var i :| 0 <= i < |entries| && entries[i] == q;
      assert names[i] in names;
    }
    forall q | q in fs && DirectlyIn(q, dir) ensures q in entries {
      assert q == dir + [q[|dir|]];
      var i :| 0 <= i < |names| && names[i] == q[|dir|];
      assert entries[i] == q;
    }
  }

  /** The entries are listed once each, in ascending name order. */
  lemma ChildPathsOrdered(dir: Path, names: seq<string>)
    requires forall i, j :: 0 <= i < j < |names| ==> Text.Less(names[i], names[j])
    ensures var entries := ChildPaths(dir, names);
            && (forall i, j :: 0 <= i < j < |entries| ==> Text.Less(Name(entries[i]), Name(entries[j])))
            && (forall i, j :: 0 <= i < j < |entries| ==> entries[i] != entries[j])
  {
    var entries := ChildPaths(dir, names);
    ChildPathsSpec(dir, names);
    forall i, j | 0 <= i < j < |entries| ensures entries[i] != entries[j] {
      Text.LessIrreflexive(names[i]);
      assert Name(entries[i]) != Name(entries[j]);
    }
  }

  /** `dir.iterdir()`. Python leaves the order unspecified; this model lists
      the entries in ascending name order, one of the orders it may produce. */
  function IterDir(fs: FileSystem, dir: Path): (r: Result<seq<Path>, IOError>)
    ensures r.Ok? <==> IsDir(fs, dir)
  {
    if IsDir(fs, dir) then Ok(ChildPaths(dir, SortedNames(ChildNames(fs, dir))))
    else if IsFile(fs, dir) then Err(NotADirectory(dir))
    else Err(MissingError(fs, dir))
  }

  /** The listing of a directory holds exactly its direct entries, each once,
      in ascending name order. */
  lemma IterDirSpec(fs: FileSystem, dir: Path)
    requires IsDir(fs, dir)
    ensures var entries := IterDir(fs, dir).value;
            && (forall q :: q in entries <==> q in fs && DirectlyIn(q, dir))
            && (forall i, j :: 0 <= i < j < |entries| ==> Text.Less(Name(entries[i]), Name(entries[j])))
            && (forall i, j :: 0 <= i < j < |entries| ==> entries[i] != entries[j])
  {
    var names := SortedNames(ChildNames(fs, dir));
    SortedNamesSpec(ChildNames(fs, dir));
    ChildPathsMembers(fs, dir, names);
    ChildPathsOrdered(dir, names);
  }

  /** `fs` and `fs'` agree on everything `iterdir` of `dir` looks at: `dir`,
      its ancestors and its direct entries. */
  ghost predicate SameListing(fs: FileSystem, fs': FileSystem, dir: Path)
  {
    forall q :: q <= dir || DirectlyIn(q, dir) ==>
      (q in fs <==> q in fs') && (q in fs ==> fs[q] == fs'[q])
  }

  lemma IterDirAgree(fs: FileSystem, fs': FileSystem, dir: Path)
    requires SameListing(fs, fs', dir)
    ensures IterDir(fs, dir) == IterDir(fs', dir)
  {
    assert dir <= dir;
    assert ChildNames(fs, dir) == ChildNames(fs', dir) by {
      forall n ensures n in ChildNames(fs, dir) <==> n in ChildNames(fs', dir) {
        assert DirectlyIn(dir + [n], dir);
      }
    }
    assert MissingError(fs, dir) == MissingError(fs', dir) by {
      forall k | 0 < k < |dir| ensures IsFile(fs, dir[..k]) <==> IsFile(fs', dir[..k]) {
        assert dir[..k] <= dir;
      }
    }
  }

  /** Changing one entry leaves what every other path is as it was. */
  lemma UpdateKeepsOthers(fs: FileSystem, p: Path, node: Node, q: Path)
    requires q != p
    ensures IsFile(fs[p := node], q) == IsFile(fs, q) && IsDir(fs[p := node], q) == IsDir(fs, q)
    ensures (q in fs[p := node] <==> q in fs) && (q in fs ==> fs[p := node][q] == fs[q])
  {
  }

  /** Changing one entry outside that region leaves the listing alone. */
  lemma SameListingUpdate(fs: FileSystem, dir: Path, q: Path, node: Node)
    requires !(q <= dir) && !DirectlyIn(q, dir)
    ensures SameListing(fs, fs[q := node], dir)
  {
  }
}

=== FILE: listing.dfy ===
/** Directory listings as the menus show them: `{Text, Path}` items,
    `sorted_by("Text", ...)`, `get_subdirs`, `get_saves`, and the numbered
    selection `prompt_choice` makes among them. */
module Listing {
  import opened Wrappers
  import opened Paths
  import opened Files
  import Naming
  import Text

  /** A menu item `{"Text": text, "Path": path}`; the "None of the above."
      and "Create new." alternatives carry no path. */
  datatype Item = Item(text: string, path: Option<Path>)

  ghost predicate Ascending(items: seq<Item>)
  {
    forall i, j :: 0 <= i < j < |items| ==> Text.LessOrEqual(items[i].text, items[j].text)
  }

  ghost predicate StrictlyAscending(items: seq<Item>)
  {
    forall i, j :: 0 <= i < j < |items| ==> Text.Less(items[i].text, items[j].text)
  }

  /** No two items share a text. */
  ghost predicate TextsDistinct(items: seq<Item>)
  {
    forall i, j :: 0 <= i < j < |items| ==> items[i].text != items[j].text
  }

  /** Places `x` before the first item whose text is not below its own. */
  function Insert(x: Item, s: seq<Item>): (r: seq<Item>)
    ensures multiset(r) == multiset(s) + multiset{x}
    ensures Ascending(s) ==> Ascending(r)
    ensures StrictlyAscending(s) && (forall y :: y in s ==> y.text != x.text) ==> StrictlyAscending(r)
  {
    if |s| == 0 then [x]
    else if Text.Less(s[0].text, x.text) then
      var rest := Insert(x, s[1..]);
      InsertAfterHead(x, s, rest);
      [s[0]] + rest
    else
      InsertAtHead(x, s);
      [x] + s
  }

  /** The head of `s` stays in front when `x` goes further in. */
  lemma InsertAfterHead(x: Item, s: seq<Item>, rest: seq<Item>)
    requires |s| > 0 && Text.Less(s[0].text, x.text)
    requires multiset(rest) == multiset(s[1..]) + multiset{x}
    requires Ascending(s[1..]) ==> Ascending(rest)
    requires StrictlyAscending(s[1..]) && (forall y :: y in s[1..] ==> y.text != x.text) ==> StrictlyAscending(rest)
    ensures multiset([s[0]] + rest) == multiset(s) + multiset{x}
    ensures Ascending(s) ==> Ascending([s[0]] + rest)
    ensures StrictlyAscending(s) && (forall y :: y in s ==> y.text != x.text) ==> StrictlyAscending([s[0]] + rest)
  {
    assert s == [s[0]] + s[1..];
    forall y | y in rest ensures y == x || y in s[1..] {
      assert y in multiset(rest);
    }
    if Ascending(s) {
      HeadBelowRest(x, s, rest, false);
    }
    if StrictlyAscending(s) && (forall y :: y in s ==> y.text != x.text) {
      HeadBelowRest(x, s, rest, true);
    }
  }

  /** The shared step of `InsertAfterHead`: everything in `rest` is at or
      above the head of `s` (strictly above when `strict`). */
  lemma HeadBelowRest(x: Item, s: seq<Item>, rest: seq<Item>, strict: bool)
    requires |s| > 0 && Text.Less(s[0].text, x.text)
    requires forall y :: y in rest ==> y == x || y in s[1..]
    requires !strict ==> Ascending(s) && Ascending(rest)
    requires strict ==> StrictlyAscending(s) && StrictlyAscending(rest)
    ensures !strict ==> Ascending([s[0]] + rest)
    ensures strict ==> StrictlyAscending([s[0]] + rest)
  {
    var r := [s[0]] + rest;
    forall j | 0 < j < |r| ensures Text.Less(s[0].text, r[j].text) || (!strict && s[0].text == r[j].text) {
      assert r[j] in rest;
      if r[j] != x {
        var k :| 0 <= k < |s[1..]| && s[1..][k] == r[j];
        assert s[k + 1] == r[j];
      }
    }
    forall i, j | 0 < i < j < |r| ensures r[i] == rest[i - 1] && r[j] == rest[j - 1] {
    }
  }

  /** `x` goes in front when the head of `s` is not below it. */
  lemma InsertAtHead(x: Item, s: seq<Item>)
    requires |s| > 0 && !Text.Less(s[0].text, x.text)
    ensures Ascending(s) ==> Ascending([x] + s)
    ensures StrictlyAscending(s) && (forall y :: y in s ==> y.text != x.text) ==> StrictlyAscending([x] + s)
  {
    Text.LessTrichotomy(s[0].text, x.text);
    var r := [x] + s;
    if Ascending(s) {
      Text.LessOrEqualTotalOrder();
      forall i, j | 0 <= i < j < |r| ensures Text.LessOrEqual(r[i].text, r[j].text) {
        if i > 0 {
          assert r[i] == s[i - 1] && r[j] == s[j - 1];
        } else {
          assert r[j] == s[j - 1];
          assert Text.LessOrEqual(s[0].text, s[j - 1].text);
        }
      }
    }
    if StrictlyAscending(s) && (forall y :: y in s ==> y.text != x.text) {
      assert s[0] in s;
      forall i, j | 0 <= i < j < |r| ensures Text.Less(r[i].text, r[j].text) {
        if i > 0 {
          assert r[i] == s[i - 1] && r[j] == s[j - 1];
        } else if j > 1 {
          assert r[j] == s[j - 1];
          Text.LessTransitive(x.text, s[0].text, s[j - 1].text);
        }
      }
    }
  }

  /** `sorted_by("Text", items)`: Python's stable sort on the `Text` key. */
  function SortedBy(items: seq<Item>): (r: seq<Item>)
    ensures multiset(r) == multiset(items)
    ensures Ascending(r)
    ensures TextsDistinct(items) ==> StrictlyAscending(r)
  {
    if |items| == 0 then []
    else
      var rest := SortedBy(items[1..]);
      SortedByStep(items, rest);
      Insert(items[0], rest)
  }

  /** What `SortedBy` needs of its first item and the sorted rest. */
  lemma SortedByStep(items: seq<Item>, rest: seq<Item>)
    requires |items| > 0 && multiset(rest) == multiset(items[1..])
    ensures multiset(items) == multiset(items[1..]) + multiset{items[0]}
    ensures TextsDistinct(items) ==> TextsDistinct(items[1..])
    ensures TextsDistinct(items) ==> forall y :: y in rest ==> y.text != items[0].text
  {
    assert items == [items[0]] + items[1..];
    if TextsDistinct(items) {
      forall y | y in rest ensures y.text != items[0].text {
        assert y in multiset(items[1..]);
        var k :| 0 <= k < |items[1..]| && items[1..][k] == y;
        assert items[k + 1] == y;
      }
      forall i, j | 0 <= i < j < |items[1..]| ensures items[1..][i].text != items[1..][j].text {
        assert items[1..][i] == items[i + 1] && items[1..][j] == items[j + 1];
      }
    }
  }

  /** Two strictly ascending listings of the same items are the same listing. */
  lemma {:induction false} StrictlyAscendingUnique(a: seq<Item>, b: seq<Item>)
    requires StrictlyAscending(a) && StrictlyAscending(b)
    requires forall x :: x in a <==> x in b
    ensures a == b
    decreases |a|
  {
    assert |a| == 0 <==> |b| == 0 by {
      if |a| > 0 { assert a[0] in a; }
      if |b| > 0 { assert b[0] in b; }
    }
    if |a| > 0 {
      HeadsAgree(a, b);
      TailSubset(a, b);
      TailSubset(b, a);
      StrictlyAscendingTail(a);
      StrictlyAscendingTail(b);
      StrictlyAscendingUnique(a[1..], b[1..]);
      assert a == [a[0]] + a[1..] && b == [b[0]] + b[1..];
    }
  }

  /** The least item of both listings comes first in each. */
  lemma HeadsAgree(a: seq<Item>, b: seq<Item>)
    requires StrictlyAscending(a) && StrictlyAscending(b)
    requires forall x :: x in a <==> x in b
    requires |a| > 0 && |b| > 0
    ensures a[0] == b[0]
  {
    assert a[0] in b;
    assert b[0] in a;
    var i :| 0 <= i < |b| && b[i] == a[0];
    var j :| 0 <= j < |a| && a[j] == b[0];
    if i != 0 && j != 0 {
      Text.LessAsymmetric(b[0].text, a[0].text);
    }
  }

  /** Past a shared head, what follows it in one listing follows it in the other. */
  lemma TailSubset(a: seq<Item>, b: seq<Item>)
    requires StrictlyAscending(a)
    requires |a| > 0 && |b| > 0 && a[0] == b[0]
    requires forall x :: x in a ==> x in b
    ensures forall x :: x in a[1..] ==> x in b[1..]
  {
    forall x | x in a[1..] ensures x in b[1..] {
      var k :| 0 <= k < |a[1..]| && a[1..][k] == x;
      assert Text.Less(a[0].text, a[k + 1].text);
      Text.LessIrreflexive(a[0].text);
      assert x in b;
      var m :| 0 <= m < |b| && b[m] == x;
      assert m != 0;
      assert b[1..][m - 1] == x;
    }
  }

  lemma StrictlyAscendingTail(a: seq<Item>)
    requires StrictlyAscending(a) && |a| > 0
    ensures StrictlyAscending(a[1..])
  {
    forall i, j | 0 <= i < j < |a[1..]| ensures Text.Less(a[1..][i].text, a[1..][j].text) {
      assert a[1..][i] == a[i + 1] && a[1..][j] == a[j + 1];
    }
  }

  /** The `{"Text": d.name, "Path": d}` items for the entries that are directories. */
  function DirItems(fs: FileSystem, entries: seq<Path>): (r: seq<Item>)
    ensures forall x :: x in r <==>
              x.path.Some? && x.path.value in entries && IsDir(fs, x.path.value) && x.text == Name(x.path.value)
    ensures (forall i, j :: 0 <= i < j < |entries| ==> entries[i] != entries[j]) ==>
              forall i, j :: 0 <= i < j < |r| ==> r[i] != r[j]
  {
    if |entries| == 0 then []
    else
      var rest := DirItems(fs, entries[1..]);
      assert entries == [entries[0]] + entries[1..];
      if IsDir(fs, entries[0]) then
        var x := Item(Name(entries[0]), Some(entries[0]));
        assert (forall i, j :: 0 <= i < j < |entries| ==> entries[i] != entries[j]) ==> x !in rest by {
          if x in rest {
            var k :| 0 <= k < |entries[1..]| && entries[1..][k] == entries[0];
            assert entries[k + 1] == entries[0];
          }
        }
        assert (forall i, j :: 0 <= i < j < |entries| ==> entries[i] != entries[j]) ==>
               (forall i, j :: 0 <= i < j < |entries[1..]| ==> entries[1..][i] != entries[1..][j]) by {
          forall i, j | 0 <= i < j < |entries[1..]| ensures entries[1..][i] == entries[i + 1] && entries[1..][j] == entries[j + 1] {
          }
        }
        [x] + rest
      else
        assert (forall i, j :: 0 <= i < j < |entries| ==> entries[i] != entries[j]) ==>
               (forall i, j :: 0 <= i < j < |entries[1..]| ==> entries[1..][i] != entries[1..][j]) by {
          forall i, j | 0 <= i < j < |entries[1..]| ensures entries[1..][i] == entries[i + 1] && entries[1..][j] == entries[j + 1] {
          }
        }
        rest
  }

  /** `get_subdirs(path)`. */
  function GetSubdirs(fs: FileSystem, path: Option<Path>): Result<seq<Item>, IOError>
  {
    match path
    case None => Ok([])
    case Some(p) =>
      match IterDir(fs, p)
      case Err(e) => Err(e)
      case Ok(entries) => Ok(SortedBy(DirItems(fs, entries)))
  }

  /** Distinct children of one directory have distinct names. */
  lemma ChildItemsTextsDistinct(fs: FileSystem, dir: Path, entries: seq<Path>)
    requires forall q :: q in entries ==> DirectlyIn(q, dir)
    requires forall i, j :: 0 <= i < j < |entries| ==> entries[i] != entries[j]
    ensures TextsDistinct(DirItems(fs, entries))
  {
    var r := DirItems(fs, entries);
    forall i, j | 0 <= i < j < |r| ensures r[i].text != r[j].text {
      assert r[i] in r && r[j] in r;
      ChildNamed(dir, r[i].path.value, r[j].path.value);
    }
  }

  /** Two entries of one directory with the same name are the same entry. */
  lemma ChildNamed(dir: Path, p: Path, q: Path)
    requires DirectlyIn(p, dir) && DirectlyIn(q, dir)
    ensures Name(p) == Name(q) ==> p == q
  {
    ChildIsJoin(dir, p);
    ChildIsJoin(dir, q);
  }

  /** `get_subdirs`: `[]` for no path; for a directory, exactly its
      subdirectories, each named by its last component, strictly ascending
      by name; for anything else, the error `iterdir` raises. */
  lemma GetSubdirsSpec(fs: FileSystem, dir: Path)
    ensures GetSubdirs(fs, None) == Ok([])
    ensures GetSubdirs(fs, Some(dir)).Ok? <==> IsDir(fs, dir)
    ensures GetSubdirs(fs, Some(dir)).Ok? ==>
              var items := GetSubdirs(fs, Some(dir)).value;
              && StrictlyAscending(items)
              && forall x :: x in items <==>
                   x.path.Some? && x.path.value in fs && DirectlyIn(x.path.value, dir) &&
                   fs[x.path.value].Dir? && x.text == Name(x.path.value)
  {
    if IsDir(fs, dir) {
      var entries := IterDir(fs, dir).value;
      IterDirSpec(fs, dir);
      assert GetSubdirs(fs, Some(dir)) == Ok(SortedBy(DirItems(fs, entries)));
      SortedChildItems(fs, dir, entries);
    }
  }

  /** `get_subdirs` of a directory is non-empty exactly when the directory
      has a subdirectory. */
  lemma SubdirsNonEmpty(fs: FileSystem, dir: Path)
    requires IsDir(fs, dir)
    ensures |GetSubdirs(fs, Some(dir)).value| > 0 <==> exists n :: IsDir(fs, dir + [n])
  {
    GetSubdirsSpec(fs, dir);
    NonEmptyIffSubdir(fs, dir, GetSubdirs(fs, Some(dir)).value);
  }

  /** The same, for any list holding exactly the directory's subdirectory items. */
  lemma NonEmptyIffSubdir(fs: FileSystem, dir: Path, items: seq<Item>)
    requires forall x :: x in items <==>
               x.path.Some? && x.path.value in fs && DirectlyIn(x.path.value, dir) &&
               fs[x.path.value].Dir? && x.text == Name(x.path.value)
    ensures |items| > 0 <==> exists n :: IsDir(fs, dir + [n])
  {
    if |items| > 0 {
      assert items[0] in items;
      var p := items[0].path.value;
      ChildIsJoin(dir, p);
      assert IsDir(fs, dir + [Name(p)]);
    }
    if exists n :: IsDir(fs, dir + [n]) {
      var n :| IsDir(fs, dir + [n]);
      var x := Item(n, Some(dir + [n]));
      assert x.path.value == dir + [n];
      assert x in items;
    }
  }

  /** Sorting the directory items of a listing of `dir`'s entries. */
  lemma SortedChildItems(fs: FileSystem, dir: Path, entries: seq<Path>)
    requires forall q :: q in entries <==> q in fs && DirectlyIn(q, dir)
    requires forall i, j :: 0 <= i < j < |entries| ==> entries[i] != entries[j]
    ensures var items := SortedBy(DirItems(fs, entries));
            && StrictlyAscending(items)
            && forall x :: x in items <==>
                 x.path.Some? && x.path.value in fs && DirectlyIn(x.path.value, dir) &&
                 fs[x.path.value].Dir? && x.text == Name(x.path.value)
  {
    ChildItemsTextsDistinct(fs, dir, entries);
    var items := SortedBy(DirItems(fs, entries));
    forall x ensures x in items <==> x in DirItems(fs, entries) {
      assert x in items <==> x in multiset(items);
    }
  }

  /** The listing does not depend on the order `iterdir` produced: sorting
      any enumeration of the directory's entries gives the same items. */
  lemma ListingOrderIrrelevant(fs: FileSystem, dir: Path, order: seq<Path>)
    requires IsDir(fs, dir)
    requires forall q :: q in order <==> q in fs && DirectlyIn(q, dir)
    requires forall i, j :: 0 <= i < j < |order| ==> order[i] != order[j]
    ensures GetSubdirs(fs, Some(dir)) == Ok(SortedBy(DirItems(fs, order)))
  {
    GetSubdirsSpec(fs, dir);
    SortedChildItems(fs, dir, order);
    StrictlyAscendingUnique(SortedBy(DirItems(fs, order)), GetSubdirs(fs, Some(dir)).value);
  }

  /** The `{"Text": f.name, "Path": f}` items for entries named like save slots. */
  function SaveItems(entries: seq<Path>): (r: seq<Item>)
    ensures forall x :: x in r <==>
              x.path.Some? && x.path.value in entries && Naming.IsSaveName(Name(x.path.value)) && x.text == Name(x.path.value)
  {
    if |entries| == 0 then []
    else
      var rest := SaveItems(entries[1..]);
      assert entries == [entries[0]] + entries[1..];
      if Naming.IsSaveName(Name(entries[0])) then [Item(Name(entries[0]), Some(entries[0]))] + rest
      else rest
  }

  /** `get_saves()`: the entries of the live save directory named
      `Profile<d>.sav`, sorted by name. The name alone decides; a directory
      so named is listed too. */
  function GetSaves(fs: FileSystem): (r: Result<seq<Item>, IOError>)
    ensures r.Ok? ==> forall i :: 0 <= i < |r.value| ==> r.value[i].path.Some?
  {
    match IterDir(fs, Naming.SavesDir)
    case Err(e) => Err(e)
    case Ok(entries) =>
      var items := SortedBy(SaveItems(entries));
      assert forall i :: 0 <= i < |items| ==> items[i].path.Some? by {
        forall i | 0 <= i < |items| ensures items[i].path.Some? {
          assert items[i] in multiset(SaveItems(entries));
        }
      }
      Ok(items)
  }

  /** `get_saves()` fails exactly when the save directory is not a directory;
      otherwise it lists, in ascending order, exactly the entries directly
      in that directory whose name is a save name, each under its name. */
  lemma GetSavesSpec(fs: FileSystem)
    ensures GetSaves(fs).Ok? <==> IsDir(fs, Naming.SavesDir)
    ensures GetSaves(fs).Ok? ==> Ascending(GetSaves(fs).value)
    ensures GetSaves(fs).Ok? ==> forall x :: x in GetSaves(fs).value <==>
                x.path.Some? && x.path.value in fs && DirectlyIn(x.path.value, Naming.SavesDir) &&
                Naming.IsSaveName(Name(x.path.value)) && x.text == Name(x.path.value)
  {
    if IsDir(fs, Naming.SavesDir) {
      var entries := IterDir(fs, Naming.SavesDir).value;
      IterDirSpec(fs, Naming.SavesDir);
      var items := SortedBy(SaveItems(entries));
      assert GetSaves(fs) == Ok(items);
      forall x ensures x in items <==> x in SaveItems(entries) {
        assert x in items <==> x in multiset(items);
      }
    }
  }

  /** `prompt_choice(items, prompt, alternative)` once the typed line has
      been read as the number `choice` (a line that is not a number behaves
      like a number out of range): the items are numbered from 1, the
      alternative, if any, comes last, and anything else selects nothing. */
  function PromptChoice<T>(items: seq<T>, alternative: Option<T>, choice: int): (r: Option<T>)
    ensures r.Some? <==> 1 <= choice <= |items| || (alternative.Some? && choice == |items| + 1)
    ensures 1 <= choice <= |items| ==> r == Some(items[choice - 1])
    ensures alternative.Some? && choice == |items| + 1 ==> r == alternative
  {
    var all := if alternative.Some? then items + [alternative.value] else items;
    if 1 <= choice < |all| + 1 then Some(all[choice - 1]) else None
  }
}

=== FILE: manager.dfy ===
/** The route manager's navigation state: the module globals
    `CURRENT_ROUTE`, `CURRENT_SNAPSHOT` and `EXIT`, the filesystem the
    actions change, and the actions of the text menu. */
module Manager {
  import opened Wrappers
  import opened Paths
  import opened Files
  import Naming
  import Listing
  import Store
  import Menu

  class RouteManager {
    /** `CURRENT_ROUTE`: the route directory, or none before one is chosen. */
    var route: Option<Path>
    /** `CURRENT_SNAPSHOT`: the route directory or a directory below it. */
    var snapshot: Option<Path>
    /** The filesystem the actions read and write. */
    var fs: FileSystem
    /** `EXIT`: set by the "Exit." entry; the main loop stops once it is. */
    var exit: bool

    /** The snapshot is set exactly when the route is, and lies at or below it. */
    ghost predicate Valid()
      reads this
    {
      (route.None? <==> snapshot.None?) &&
      (route.Some? ==> route.value <= snapshot.value)
    }

    /** The state at start-up: no route, no snapshot, not exiting. */
    constructor (fs0: FileSystem)
      ensures Valid()
      ensures route == None && snapshot == None && fs == fs0 && !exit
    {
      route := None;
      snapshot := None;
      fs := fs0;
      exit := false;
    }

    /** `current_depth()`: the number of components from the route down to
        the snapshot, plus one. */
    function Depth(): (d: int)
      reads this
      requires Valid() && snapshot.Some?
      ensures d >= 1
      ensures d == 1 <==> snapshot == route
    {
      var rel := RelativeParts(snapshot.value, route.value);
      assert rel == [] ==> snapshot.value == route.value + rel == route.value;
      |rel| + 1
    }

    /** `has_parent()`: a snapshot strictly below its route. */
    function HasParent(): (r: bool)
      reads this
      requires Valid()
      ensures r <==> snapshot.Some? && Depth() > 1
    {
      if snapshot.None? then false else snapshot.value != route.value
    }

    /** `has_child()`: whether `get_subdirs` of the snapshot is non-empty;
        the error `iterdir` raises when the snapshot is not a directory. */
    function HasChild(): (r: Result<bool, IOError>)
      reads this
      ensures snapshot.None? ==> r == Ok(false)
      ensures snapshot.Some? ==> (r.Ok? <==> IsDir(fs, snapshot.value))
      ensures r == Ok(true) <==> snapshot.Some? && IsDir(fs, snapshot.value) &&
                                 exists n :: IsDir(fs, snapshot.value + [n])
    {
      if snapshot.Some? && IsDir(fs, snapshot.value) then
        Listing.GetSubdirsSpec(fs, snapshot.value);
        Listing.SubdirsNonEmpty(fs, snapshot.value);
        Ok(|Listing.GetSubdirs(fs, snapshot).value| > 0)
      else
        Listing.GetSubdirsSpec(fs, if snapshot.Some? then snapshot.value else []);
        match Listing.GetSubdirs(fs, snapshot)
        case Err(e) => Err(e)
        case Ok(items) => Ok(|items| > 0)
    }

    /** `set_current_route(path)`: route and snapshot both become `path`. */
    method SetCurrentRoute(path: Option<Path>)
      modifies this
      ensures route == path && snapshot == path
      ensures fs == old(fs) && exit == old(exit)
      ensures Valid()
    {
      route := path;
      snapshot := path;
    }

    /** `switch_routes()`: back to choosing a route. */
    method SwitchRoutes()
      modifies this
      ensures route == None && snapshot == None
      ensures fs == old(fs) && exit == old(exit)
      ensures Valid()
    {
      SetCurrentRoute(None);
    }

    /** `set_child_snapshot(child)`: move to the child's path; nothing
        happens for no child or a child without a path. */
    method SetChildSnapshot(child: Option<Listing.Item>)
      modifies this
      ensures snapshot == if child.Some? && child.value.path.Some? then child.value.path else old(snapshot)
      ensures route == old(route) && fs == old(fs) && exit == old(exit)
    {
      if child.None? || child.value.path.None? {
        return;
      }
      snapshot := child.value.path;
    }

    /** `return_to_parent()`: up one directory. Below the route this stays
        within the route one level up; at the route itself it leaves the
        route, which is why the menu offers it only with a parent. */
    method ReturnToParent()
      requires Valid() && snapshot.Some?
      modifies this
      ensures snapshot == Some(Parent(old(snapshot.value)))
      ensures route == old(route) && fs == old(fs) && exit == old(exit)
      ensures old(HasParent()) ==> Valid() && Depth() == old(Depth()) - 1
      ensures !old(HasParent()) && |route.value| > 0 ==> !Valid()
    {
      if snapshot.value != route.value {
        ParentStaysBelow(route.value, snapshot.value);
      }
      snapshot := Some(Parent(snapshot.value));
    }

    /** `save_child_snapshot_as(filename)`: the filesystem steps of
        `Store.SaveChild`; the snapshot moves to the new child only once
        both copies are done. */
    method SaveChildSnapshotAs(filename: string) returns (error: Option<IOError>)
      requires Valid() && snapshot.Some?
      requires IsComponent(filename)
      modifies this
      ensures var o := Store.SaveChild(old(fs), old(route.value), old(snapshot.value), filename);
              fs == o.fs && error == o.error
      ensures snapshot == if error.None? then Some(old(snapshot.value) + [filename]) else old(snapshot)
      ensures route == old(route) && exit == old(exit)
      ensures Valid()
      ensures error.None? ==> Depth() == old(Depth()) + 1
    {
      var o := Store.SaveChild(fs, route.value, snapshot.value, filename);
      var child := snapshot.value + [filename];
      var ok := o.error.None?;
      fs := o.fs;
      error := o.error;
      snapshot := if ok then Some(child) else snapshot;
    }

    /** `load_current_snapshot()`: the filesystem steps of `Store.LoadSnapshot`. */
    method LoadCurrentSnapshot() returns (error: Option<IOError>)
      requires Valid() && snapshot.Some?
      modifies this
      ensures route == old(route) && snapshot == old(snapshot) && exit == old(exit)
      ensures var o := Store.LoadSnapshot(old(fs), route.value, snapshot.value);
              fs == o.fs && error == o.error
    {
      var o := Store.LoadSnapshot(fs, route.value, snapshot.value);
      fs := o.fs;
      error := o.error;
    }

    /** `create_new_route()` with the typed slot number and route name: the
        filesystem steps of `Store.CreateNewRoute`, returning the new route. */
    method CreateNewRoute(choice: int, filename: string) returns (newRoute: Option<Path>, error: Option<IOError>)
      requires IsComponent(filename)
      modifies this
      ensures var c := Store.CreateNewRoute(old(fs), choice, filename);
              fs == c.fs && newRoute == c.route && error == c.error
      ensures route == old(route) && snapshot == old(snapshot) && exit == old(exit)
    {
      var c := Store.CreateNewRoute(fs, choice, filename);
      fs := c.fs;
      newRoute := c.route;
      error := c.error;
    }

    /** `choose_child_snapshot()` with the typed number `choice`: a single
        subdirectory is taken without asking; otherwise the numbered choice
        among them, where "None of the above." and any other number stay put. */
    method ChooseChildSnapshot(choice: int) returns (error: Option<IOError>)
      requires Valid()
      modifies this
      ensures route == old(route) && fs == old(fs) && exit == old(exit)
      ensures Valid()
      ensures Listing.GetSubdirs(fs, old(snapshot)).Err? ==>
                error == Some(Listing.GetSubdirs(fs, old(snapshot)).error) && snapshot == old(snapshot)
      ensures Listing.GetSubdirs(fs, old(snapshot)).Ok? ==>
                var subdirs := Listing.GetSubdirs(fs, old(snapshot)).value;
                error.None? &&
                (|subdirs| == 1 ==> snapshot == subdirs[0].path) &&
                (|subdirs| != 1 && 1 <= choice <= |subdirs| ==> snapshot == subdirs[choice - 1].path) &&
                (|subdirs| != 1 && !(1 <= choice <= |subdirs|) ==> snapshot == old(snapshot))
      ensures snapshot != old(snapshot) ==>
                old(snapshot).Some? && snapshot.Some? && IsDir(fs, snapshot.value) &&
                Parent(snapshot.value) == old(snapshot.value) && Depth() == old(Depth()) + 1
    {
      var result := Listing.GetSubdirs(fs, snapshot);
      if result.Err? {
        error := Some(result.error);
        return;
      }
      error := None;
      var subdirs := result.value;
      if snapshot.Some? {
        Listing.GetSubdirsSpec(fs, snapshot.value);
      }
      var child: Option<Listing.Item>;
      if |subdirs| == 1 {
        child := Some(subdirs[0]);
      } else {
        child := Listing.PromptChoice(subdirs, Some(Listing.Item("None of the above.", None)), choice);
      }
      assert child.Some? && child.value.path.Some? ==> child.value in subdirs;
      ghost var before := snapshot;
      SetChildSnapshot(child);
      if snapshot != before {
        ChildIsJoin(before.value, snapshot.value);
        ParentOfJoin(before.value, Name(snapshot.value));
      }
    }

    /** `exit_route_manager()`. */
    method ExitRouteManager()
      modifies this
      ensures exit
      ensures route == old(route) && snapshot == old(snapshot) && fs == old(fs)
    {
      exit := true;
    }

    /** Run the `"Function"` of a menu entry; `filename` and `choice` stand
        for what the prompts of "Save a new child." and "Select a child
        snapshot." read. The actions gated by `has_parent` need it. Each
        action changes what its function changes and keeps the invariant. */
    method Perform(action: Menu.Action, filename: string, choice: int) returns (error: Option<IOError>)
      requires Valid() && route.Some?
      requires action == Menu.LoadSnapshot || action == Menu.ReturnToParent ==> HasParent()
      requires action == Menu.SaveChild ==> IsComponent(filename)
      modifies this
      ensures Valid()
      ensures action == Menu.LoadSnapshot ==>
                var o := Store.LoadSnapshot(old(fs), old(route.value), old(snapshot.value));
                route == old(route) && snapshot == old(snapshot) && fs == o.fs && error == o.error
      ensures action == Menu.ReturnToParent ==>
                route == old(route) && snapshot == Some(Parent(old(snapshot.value))) &&
                fs == old(fs) && Depth() == old(Depth()) - 1
      ensures action == Menu.SaveChild ==>
                var o := Store.SaveChild(old(fs), old(route.value), old(snapshot.value), filename);
                route == old(route) && fs == o.fs && error == o.error &&
                snapshot == (if error.None? then Some(old(snapshot.value) + [filename]) else old(snapshot)) &&
                (error.None? ==> Depth() == old(Depth()) + 1)
      ensures action == Menu.SwitchRoutes ==> route == None && snapshot == None && fs == old(fs)
      ensures action == Menu.ChooseChild ==> route == old(route) && fs == old(fs)
      ensures action == Menu.Exit ==>
                exit && route == old(route) && snapshot == old(snapshot) && fs == old(fs)
      ensures action != Menu.Exit ==> exit == old(exit)
    {
      error := None;
      match action
      case LoadSnapshot => error := LoadCurrentSnapshot();
      case ReturnToParent => ReturnToParent();
      case SaveChild => error := SaveChildSnapshotAs(filename);
      case SwitchRoutes => SwitchRoutes();
      case ChooseChild => error := ChooseChildSnapshot(choice);
      case Exit => ExitRouteManager();
    }

    /** One pass of the main loop with a route chosen: the menu entries whose
        predicate holds, the numbered choice among them, and its action.
        Whatever is chosen, the state stays valid: the menu never offers
        going up or loading at the route itself. */
    method ChooseAction(choice: int, filename: string, childChoice: int) returns (error: Option<IOError>)
      requires Valid() && route.Some?
      requires IsComponent(filename)
      modifies this
      ensures Valid()
      ensures old(HasChild()).Err? ==>
                error == Some(old(HasChild()).error) &&
                route == old(route) && snapshot == old(snapshot) && fs == old(fs) && exit == old(exit)
      ensures old(HasChild()).Ok? &&
              !(1 <= choice <= |Menu.VisibleEntries(Menu.TextRouteMenu, old(HasParent()), old(HasChild()).value)|) ==>
                error.None? &&
                route == old(route) && snapshot == old(snapshot) && fs == old(fs) && exit == old(exit)
    {
      var hasParent := HasParent();
      var hasChild := HasChild();
      if hasChild.Err? {
        error := Some(hasChild.error);
        return;
      }
      var menu := Menu.VisibleEntries(Menu.TextRouteMenu, hasParent, hasChild.value);
      var chosen := Listing.PromptChoice(menu, None, choice);
      error := None;
      if chosen.Some? {
        Menu.ParentGatedEntries(hasParent, hasChild.value);
        error := Perform(chosen.value.action, filename, childChoice);
      }
    }

    /** One pass of the main loop without a route: the numbered choice among
        the routes under `Routes`, with "Create new." last, which runs
        `create_new_route()`; any other number leaves the state as it was. */
    method ChooseRoute(choice: int, slotChoice: int, filename: string) returns (error: Option<IOError>)
      requires Valid() && route.None?
      requires IsComponent(filename)
      modifies this
      ensures Valid() && route == snapshot && exit == old(exit)
      ensures Listing.GetSubdirs(old(fs), Some(Naming.RoutesRoot)).Err? ==>
                error.Some? && route == None && fs == old(fs)
      ensures Listing.GetSubdirs(old(fs), Some(Naming.RoutesRoot)).Ok? ==>
                var routes := Listing.GetSubdirs(old(fs), Some(Naming.RoutesRoot)).value;
                var created := Store.CreateNewRoute(old(fs), slotChoice, filename);
                (1 <= choice <= |routes| ==> error.None? && route == routes[choice - 1].path && fs == old(fs)) &&
                (choice == |routes| + 1 ==> error == created.error && route == created.route && fs == created.fs) &&
                (!(1 <= choice <= |routes| + 1) ==> error.None? && route == None && fs == old(fs))
    {
      var result := Listing.GetSubdirs(fs, Some(Naming.RoutesRoot));
      if result.Err? {
        error := Some(result.error);
        return;
      }
      var routes := result.value;
      Listing.GetSubdirsSpec(fs, Naming.RoutesRoot);
      var chosen := Listing.PromptChoice(routes, Some(Listing.Item("Create new.", None)), choice);
      error := None;
      if chosen.None? {
        return;
      }
      if chosen.value.path.Some? {
        SetCurrentRoute(chosen.value.path);
      } else {
        var newRoute;
        newRoute, error := CreateNewRoute(slotChoice, filename);
        if error.None? {
          SetCurrentRoute(newRoute);
        }
      }
    }
  }
}

=== FILE: menu.dfy ===
/** The action menus of the text interface: each entry has a caption, an
    optional gate (the `"Predicate"` key) and the action it runs. */
module Menu {

  /** The `"Function"` of a menu entry. */
  datatype Action =
    | LoadSnapshot
    | ReturnToParent
    | SaveChild
    | SwitchRoutes
    | ChooseChild
    | Exit

  /** The `"Predicate"` of a menu entry; `Always` for an entry without one. */
  datatype Gate = Always | WhenHasParent | WhenHasChild

  datatype MenuEntry = MenuEntry(text: string, gate: Gate, action: Action)

  /** `ROUTE_MENU`: the entries that move between snapshots of a route. */
  const RouteMenu: seq<MenuEntry> := [
    MenuEntry("Load this snapshot.", WhenHasParent, LoadSnapshot),
    MenuEntry("Return to parent.", WhenHasParent, ReturnToParent)
  ]

  /** The entries the text interface adds after `ROUTE_MENU`. */
  const TextOnlyMenu: seq<MenuEntry> := [
    MenuEntry("Save a new child.", Always, SaveChild),
    MenuEntry("Switch routes.", Always, SwitchRoutes),
    MenuEntry("Select a child snapshot.", WhenHasChild, ChooseChild),
    MenuEntry("Exit.", Always, Exit)
  ]

  /** `TEXT_ROUTE_MENU`. */
  const TextRouteMenu: seq<MenuEntry> := RouteMenu + TextOnlyMenu

  /** Whether an entry is offered, given the values of `has_parent()` and
      `has_child()`. */
  predicate Shown(e: MenuEntry, hasParent: bool, hasChild: bool)
  {
    match e.gate
    case Always => true
    case WhenHasParent => hasParent
    case WhenHasChild => hasChild
  }

  /** The entries of `menu` with no predicate or a true one, in menu order. */
  function VisibleEntries(menu: seq<MenuEntry>, hasParent: bool, hasChild: bool): (r: seq<MenuEntry>)
    ensures |r| <= |menu|
    ensures forall e :: e in r <==> e in menu && Shown(e, hasParent, hasChild)
  {
    if |menu| == 0 then []
    else
      var rest := VisibleEntries(menu[1..], hasParent, hasChild);
      assert menu == [menu[0]] + menu[1..];
      if Shown(menu[0], hasParent, hasChild) then [menu[0]] + rest else rest
  }

  /** Filtering a menu in two parts filters each part in turn: the entries
      kept stay in the order the menu lists them. */
  lemma {:induction false} VisibleEntriesAppend(a: seq<MenuEntry>, b: seq<MenuEntry>, hasParent: bool, hasChild: bool)
    ensures VisibleEntries(a + b, hasParent, hasChild) ==
            VisibleEntries(a, hasParent, hasChild) + VisibleEntries(b, hasParent, hasChild)
    decreases |a|
  {
    if |a| == 0 {
      assert a + b == b;
    } else {
      assert (a + b)[1..] == a[1..] + b;
      assert (a + b)[0] == a[0];
      VisibleEntriesAppend(a[1..], b, hasParent, hasChild);
    }
  }

  /** A menu whose every entry is shown comes back whole. */
  lemma {:induction false} AllShownKept(menu: seq<MenuEntry>, hasParent: bool, hasChild: bool)
    requires forall i :: 0 <= i < |menu| ==> Shown(menu[i], hasParent, hasChild)
    ensures VisibleEntries(menu, hasParent, hasChild) == menu
    decreases |menu|
  {
    if |menu| > 0 {
      AllShownKept(menu[1..], hasParent, hasChild);
      assert menu == [menu[0]] + menu[1..];
    }
  }

  /** In `TEXT_ROUTE_MENU`, the entries that load a snapshot or go up to the
      parent are exactly the ones gated by `has_parent`, and the one that
      selects a child is the one gated by `has_child`. */
  lemma TextRouteMenuGates()
    ensures forall i :: 0 <= i < |TextRouteMenu| ==>
              ((TextRouteMenu[i].action == LoadSnapshot || TextRouteMenu[i].action == ReturnToParent) <==>
               TextRouteMenu[i].gate == WhenHasParent)
    ensures forall i :: 0 <= i < |TextRouteMenu| ==>
              (TextRouteMenu[i].action == ChooseChild <==> TextRouteMenu[i].gate == WhenHasChild)
  {
    assert |TextRouteMenu| == 6;
    assert forall i :: 0 <= i < 2 ==> TextRouteMenu[i] == RouteMenu[i];
    assert forall i :: 2 <= i < 6 ==> TextRouteMenu[i] == TextOnlyMenu[i - 2];
  }

  /** Whatever the menu, an offered entry's gate holds, and an entry
      without a gate is offered. */
  lemma GatesRespected(menu: seq<MenuEntry>, hasParent: bool, hasChild: bool)
    ensures forall i :: 0 <= i < |menu| && menu[i] in VisibleEntries(menu, hasParent, hasChild) ==>
              (menu[i].gate == WhenHasParent ==> hasParent) && (menu[i].gate == WhenHasChild ==> hasChild)
    ensures forall i :: 0 <= i < |menu| && Shown(menu[i], hasParent, hasChild) ==>
              menu[i] in VisibleEntries(menu, hasParent, hasChild)
    ensures forall e :: e in VisibleEntries(menu, hasParent, hasChild) ==>
              exists i :: 0 <= i < |menu| && menu[i] == e
  {
  }

  /** With no parent, neither "Load this snapshot." nor "Return to parent."
      is offered; with a parent both are, first and in that order. */
  lemma ParentGatedEntries(hasParent: bool, hasChild: bool)
    ensures hasParent ==> RouteMenu <= VisibleEntries(TextRouteMenu, hasParent, hasChild)
    ensures forall e :: e in VisibleEntries(TextRouteMenu, hasParent, hasChild) ==>
                        (e.action == LoadSnapshot || e.action == ReturnToParent ==> hasParent)
  {
    TextRouteMenuGates();
    GatesRespected(TextRouteMenu, hasParent, hasChild);
    if hasParent {
      VisibleEntriesAppend(RouteMenu, TextOnlyMenu, hasParent, hasChild);
      AllShownKept(RouteMenu, hasParent, hasChild);
    }
  }

  /** The entries without a predicate are offered whatever the state, and
      "Select a child snapshot." is offered exactly when there is a child. */
  lemma UngatedEntriesAlwaysShown(hasParent: bool, hasChild: bool)
    ensures forall i :: 0 <= i < |TextRouteMenu| && TextRouteMenu[i].gate == Always ==>
              TextRouteMenu[i] in VisibleEntries(TextRouteMenu, hasParent, hasChild)
    ensures (exists e :: e in VisibleEntries(TextRouteMenu, hasParent, hasChild) && e.action == ChooseChild) <==> hasChild
  {
    TextRouteMenuGates();
    GatesRespected(TextRouteMenu, hasParent, hasChild);
    if hasChild {
      assert TextRouteMenu[4].action == ChooseChild;
      assert TextRouteMenu[4] in VisibleEntries(TextRouteMenu, hasParent, hasChild);
    }
  }
}

=== FILE: naming.dfy ===
/** Where the route manager keeps things and how it names them: the routes
    root, the game's live save directory, the `Profile<d>.sav` save-slot
    names and the companion names derived from them by suffix substitution. */
module Naming {
  import opened Wrappers
  import opened Paths
  import opened Files
  import Text

  /** `ROUTES_PATH`, `./Routes`. */
  const RoutesRoot: Path := ["Routes"]

  /** `HADES_SAVES_PATH`; its first component stands for the user's home directory. */
  const SavesDir: Path := ["~", "Library", "Application Support", "Supergiant Games", "Hades"]

  predicate IsDigit(c: char)
  {
    '0' <= c <= '9'
  }

  /** `re.search(r'^Profile\d\.sav$', name)`: `Profile`, one digit, `.sav`;
      Python's `$` also matches just before a final newline. */
  predicate IsSaveName(name: string)
  {
    && (|name| == 12 || (|name| == 13 && name[12] == '\n'))
    && name[..7] == "Profile" && IsDigit(name[7]) && name[8..12] == ".sav"
  }

  /** `current_temp_name()` from the save name: `.sav` becomes `_Temp.sav`. */
  function TempName(save: string): string
  {
    Text.ReplaceAll(save, ".sav", "_Temp.sav")
  }

  /** `current_v_name()` from the save name: `.sav` becomes `.v.sav`. */
  function VName(save: string): string
  {
    Text.ReplaceAll(save, ".sav", ".v.sav")
  }

  /** `current_sjson_name()` from the save name: `.sav` becomes `.sjson`. */
  function SjsonName(save: string): string
  {
    Text.ReplaceAll(save, ".sav", ".sjson")
  }

  /** The one `.sav` in a save name is at index 8; what follows it (nothing,
      or the newline `$` tolerates) is kept. */
  lemma SuffixSubstitution(save: string, rep: string)
    requires IsSaveName(save)
    ensures Text.ReplaceAll(save, ".sav", rep) == save[..8] + rep + save[12..]
  {
    var pat := ".sav";
    forall j | 0 <= j < 8 ensures !Text.OccursAt(save, pat, j) {
      if j < 7 {
        assert save[j] == save[..7][j];
      }
      assert save[j] != '.';
      assert j + 4 <= |save| ==> save[j..j + 4][0] == save[j];
    }
    assert save[8..12] == pat;
    Text.ReplaceAtFirstOccurrence(save, pat, rep, 8);
    Text.ReplaceAbsent(save[12..], pat, rep);
  }

  /** The derived names of slot `Profile<d>.sav` are `Profile<d>_Temp.sav`,
      `Profile<d>.v.sav` and `Profile<d>.sjson`. */
  lemma DerivedNames(save: string)
    requires IsSaveName(save)
    ensures TempName(save) == save[..8] + "_Temp.sav" + save[12..]
    ensures VName(save) == save[..8] + ".v.sav" + save[12..]
    ensures SjsonName(save) == save[..8] + ".sjson" + save[12..]
  {
    SuffixSubstitution(save, "_Temp.sav");
    SuffixSubstitution(save, ".v.sav");
    SuffixSubstitution(save, ".sjson");
  }

  /** The four files of one slot have four different names, and none of the
      companions is itself a save name. */
  lemma DerivedNamesDistinct(save: string)
    requires IsSaveName(save)
    ensures save != TempName(save) && save != VName(save) && save != SjsonName(save)
    ensures TempName(save) != VName(save) && TempName(save) != SjsonName(save)
    ensures VName(save) != SjsonName(save)
    ensures !IsSaveName(TempName(save)) && !IsSaveName(VName(save)) && !IsSaveName(SjsonName(save))
  {
    DerivedNames(save);
    assert VName(save)[9] == 'v' && SjsonName(save)[9] == 's';
  }

  /** A save name is fixed by its length and its digit. */
  lemma SaveNameShape(a: string, b: string)
    requires IsSaveName(a) && IsSaveName(b)
    ensures a == b <==> |a| == |b| && a[7] == b[7]
  {
    if |a| == |b| && a[7] == b[7] {
      assert a[..7] == b[..7] && a[8..12] == b[8..12];
      forall k | 0 <= k < |a| ensures a[k] == b[k] {
        if k < 7 {
          assert a[k] == a[..7][k] && b[k] == b[..7][k];
        } else if 8 <= k < 12 {
          assert a[k] == a[8..12][k - 8] && b[k] == b[8..12][k - 8];
        }
      }
    }
  }

  /** Different slots have different companions. */
  lemma DerivedNamesInjective(a: string, b: string)
    requires IsSaveName(a) && IsSaveName(b) && a != b
    ensures TempName(a) != TempName(b) && VName(a) != VName(b) && SjsonName(a) != SjsonName(b)
  {
    DerivedNames(a);
    DerivedNames(b);
    SaveNameShape(a, b);
    if |a| == |b| {
      assert TempName(a)[7] == a[7] && TempName(b)[7] == b[7];
      assert VName(a)[7] == a[7] && VName(b)[7] == b[7];
      assert SjsonName(a)[7] == a[7] && SjsonName(b)[7] == b[7];
    }
  }

  /** The first entry of a listing whose name is a save name. */
  function FirstSaveName(entries: seq<Path>, route: Path): Result<string, IOError>
  {
    if |entries| == 0 then Err(NoSaveFile(route))
    else if IsSaveName(Name(entries[0])) then Ok(Name(entries[0]))
    else FirstSaveName(entries[1..], route)
  }

  /** It fails, with `NoSaveFile`, exactly when no entry has a save name;
      otherwise it returns the name of an entry with no save name before it. */
  lemma {:induction false} FirstSaveNameSpec(entries: seq<Path>, route: Path)
    ensures var r := FirstSaveName(entries, route);
            && (r.Err? <==> forall i :: 0 <= i < |entries| ==> !IsSaveName(Name(entries[i])))
            && (r.Err? ==> r.error == NoSaveFile(route))
            && (r.Ok? ==> exists i :: 0 <= i < |entries| && Name(entries[i]) == r.value &&
                                     IsSaveName(r.value) &&
                                     forall j :: 0 <= j < i ==> !IsSaveName(Name(entries[j])))
    decreases |entries|
  {
    if |entries| > 0 && !IsSaveName(Name(entries[0])) {
      var r := FirstSaveName(entries[1..], route);
      FirstSaveNameSpec(entries[1..], route);
      forall i | 0 < i < |entries| ensures entries[i] == entries[1..][i - 1] {
      }
      if r.Ok? {
        var i :| 0 <= i < |entries| - 1 && Name(entries[1..][i]) == r.value &&
                 forall j :: 0 <= j < i ==> !IsSaveName(Name(entries[1..][j]));
        assert Name(entries[i + 1]) == r.value;
        assert forall j :: 0 <= j < i + 1 ==> !IsSaveName(Name(entries[j])) by {
          forall j | 0 < j < i + 1 ensures !IsSaveName(Name(entries[j])) {
            assert entries[j] == entries[1..][j - 1];
          }
        }
      }
    } else if |entries| > 0 {
      assert Name(entries[0]) == FirstSaveName(entries, route).value;
    }
  }

  /** `current_save_name()`: the first entry of the route directory whose
      name is a save name (the route's primary file). */
  function CurrentSaveName(fs: FileSystem, route: Path): Result<string, IOError>
  {
    match IterDir(fs, route)
    case Err(e) => Err(e)
    case Ok(entries) => FirstSaveName(entries, route)
  }

  /** The save name found is an entry of the route, matches the pattern and,
      in the listing order the model uses, is the least such name; a route
      directory with no such entry gives `NoSaveFile`. */
  lemma CurrentSaveNameSpec(fs: FileSystem, route: Path)
    ensures CurrentSaveName(fs, route).Ok? ==>
              var n := CurrentSaveName(fs, route).value;
              IsSaveName(n) && route + [n] in fs &&
              forall m :: m in ChildNames(fs, route) && IsSaveName(m) ==> Text.LessOrEqual(n, m)
    ensures CurrentSaveName(fs, route).Err? && IsDir(fs, route) <==>
              IsDir(fs, route) && forall m :: m in ChildNames(fs, route) ==> !IsSaveName(m)
  {
    if IsDir(fs, route) {
      var entries := IterDir(fs, route).value;
      IterDirSpec(fs, route);
      FirstSaveNameSpec(entries, route);
      if CurrentSaveName(fs, route).Ok? {
        FirstSaveNameIsLeast(fs, route, entries);
      } else {
        forall m | m in ChildNames(fs, route) ensures !IsSaveName(m) {
          assert route + [m] in entries;
          var k :| 0 <= k < |entries| && entries[k] == route + [m];
          assert Name(entries[k]) == m;
        }
      }
    }
  }

  /** The part of `CurrentSaveNameSpec` most callers need. */
  lemma CurrentSaveNameFound(fs: FileSystem, route: Path)
    requires CurrentSaveName(fs, route).Ok?
    ensures IsSaveName(CurrentSaveName(fs, route).value)
    ensures route + [CurrentSaveName(fs, route).value] in fs
  {
    CurrentSaveNameSpec(fs, route);
  }

  lemma FirstSaveNameIsLeast(fs: FileSystem, route: Path, entries: seq<Path>)
    requires forall q :: q in entries <==> q in fs && DirectlyIn(q, route)
    requires forall i, j :: 0 <= i < j < |entries| ==> Text.Less(Name(entries[i]), Name(entries[j]))
    requires FirstSaveName(entries, route).Ok?
    ensures var n := FirstSaveName(entries, route).value;
            IsSaveName(n) && route + [n] in fs &&
            forall m :: route + [m] in fs && IsSaveName(m) ==> Text.LessOrEqual(n, m)
  {
    var n := FirstSaveName(entries, route).value;
    FirstSaveNameSpec(entries, route);
    var i :| 0 <= i < |entries| && Name(entries[i]) == n &&
             forall j :: 0 <= j < i ==> !IsSaveName(Name(entries[j]));
    assert entries[i] in entries;
    ChildIsJoin(route, entries[i]);
    forall m | route + [m] in fs && IsSaveName(m) ensures Text.LessOrEqual(n, m) {
      var k := IndexOfChild(fs, route, entries, m);
      FirstIsLeast(entries, i, k);
    }
  }

  /** The position of an entry in a listing that holds exactly the
      directory's children. */
  lemma IndexOfChild(fs: FileSystem, route: Path, entries: seq<Path>, m: string) returns (k: nat)
    requires forall q :: q in entries <==> q in fs && DirectlyIn(q, route)
    requires route + [m] in fs
    ensures k < |entries| && Name(entries[k]) == m
  {
    assert route + [m] in entries;
    k :| 0 <= k < |entries| && entries[k] == route + [m];
  }

  /** In a listing ascending by name, the first save name sorts no later
      than any other save name in it. */
  lemma FirstIsLeast(entries: seq<Path>, i: nat, k: nat)
    requires i < |entries| && k < |entries|
    requires forall j :: 0 <= j < i ==> !IsSaveName(Name(entries[j]))
    requires forall i, j :: 0 <= i < j < |entries| ==> Text.Less(Name(entries[i]), Name(entries[j]))
    requires IsSaveName(Name(entries[k]))
    ensures Text.LessOrEqual(Name(entries[i]), Name(entries[k]))
  {
    if i != k {
      assert i < k;
    }
  }



  /** `current_temp_name()`, `current_v_name()` and `current_sjson_name()`:
      the route's save name with its suffix substituted. */
  function CurrentName(fs: FileSystem, route: Path, derive: string -> string): Result<string, IOError>
  {
    match CurrentSaveName(fs, route)
    case Err(e) => Err(e)
    case Ok(save) => Ok(derive(save))
  }

  /** The route's save name only depends on the route's own listing. */
  lemma CurrentNameAgree(fs: FileSystem, fs': FileSystem, route: Path, derive: string -> string)
    requires SameListing(fs, fs', route)
    ensures CurrentSaveName(fs, route) == CurrentSaveName(fs', route)
    ensures CurrentName(fs, route, derive) == CurrentName(fs', route, derive)
  {
    IterDirAgree(fs, fs', route);
  }
}

=== FILE: paths.dfy ===
/** Paths as lists of normalised components, the way `pathlib.Path`
    objects are used by the route manager: `/` appends a component,
    `.parent` drops the last one, `.name` is the last one and
    `relative_to` strips a prefix. */
module Paths {

  /** A normalised path; `[]` is the root directory. */
  type Path = seq<string>

  /** `p.parent`: the root is its own parent. */
  function Parent(p: Path): (r: Path)
    ensures |p| > 0 ==> |r| == |p| - 1
    ensures r <= p
  {
    if |p| == 0 then p else p[..|p| - 1]
  }

  /** `p.name`: the last component, or the empty string for the root. */
  function Name(p: Path): string
  {
    if |p| == 0 then "" else p[|p| - 1]
  }

  /** `p.relative_to(base).parts`; `relative_to` raises unless `base` is a prefix. */
  function RelativeParts(p: Path, base: Path): (r: seq<string>)
    requires base <= p
    ensures base + r == p
  {
    p[|base|..]
  }

  /** The names the model accepts for a new route or snapshot, so that
      appending one names a new entry directly inside the directory: not
      empty, not `.` (pathlib collapses it), not `..` (the OS resolves it
      to the parent), and without `/`. */
  predicate IsComponent(name: string)
  {
    name != "" && name != "." && name != ".." && '/' !in name
  }

  /** Entries directly inside `dir`: the paths `dir / name`. */
  predicate DirectlyIn(q: Path, dir: Path)
  {
    |q| == |dir| + 1 && dir <= q
  }

  /** `(p / name).parent` is `p` and `(p / name).name` is `name`. */
  lemma ParentOfJoin(p: Path, name: string)
    ensures Parent(p + [name]) == p && Name(p + [name]) == name
  {
  }

  /** Going up from a path strictly below `base` stays at or below `base`. */
  lemma ParentStaysBelow(base: Path, p: Path)
    requires base <= p && p != base
    ensures base <= Parent(p)
    ensures |RelativeParts(Parent(p), base)| == |RelativeParts(p, base)| - 1
  {
    assert |p| > |base|;
    assert Parent(p) == p[..|p| - 1];
    assert Parent(p)[..|base|] == p[..|base|];
  }

  /** Entries with different names are different paths, wherever they are. */
  lemma JoinNamesDiffer(a: Path, x: string, b: Path, y: string)
    requires x != y
    ensures a + [x] != b + [y]
  {
    if |a| == |b| {
      assert (a + [x])[|a|] == x && (b + [y])[|b|] == y;
    }
  }

  /** A direct child of `dir` is `dir` joined with its own name. */
  lemma ChildIsJoin(dir: Path, p: Path)
    requires DirectlyIn(p, dir)
    ensures p == dir + [Name(p)]
  {
  }
}

=== FILE: store.dfy ===
/** The snapshot store: creating a route from a save slot, saving the live
    game as a child snapshot, loading a snapshot back into the live save
    directory, and the descriptor patch that follows a load. Each operation
    is a sequence of filesystem steps; like a Python exception, a failing
    step stops the sequence and leaves the effects of the earlier steps. */
module Store {
  import opened Wrappers
  import opened Paths
  import opened Files
  import opened Naming
  import Listing
  import Text

  /** The filesystem after a sequence of steps, and the error that stopped
      it, if one did. */
  datatype Outcome = Outcome(fs: FileSystem, error: Option<IOError>)

  function AsciiBytes(s: string): (r: seq<Byte>)
    requires forall i :: 0 <= i < |s| ==> s[i] as int < 256
    ensures |r| == |s| && forall i :: 0 <= i < |s| ==> r[i] == s[i] as int
  {
    seq(|s|, i requires 0 <= i < |s| => s[i] as int)
  }

  /** The descriptor line `force_snapshot_valid` deletes, `  ValidCheckpoint = false`
      and its newline, as the bytes of the descriptor's text. */
  const InvalidCheckpointLine: seq<Byte> := AsciiBytes("  ValidCheckpoint = false\n")

  /** The text transformation of `force_snapshot_valid`. */
  function PatchDescriptor(text: seq<Byte>): seq<Byte>
  {
    Text.ReplaceAll(text, InvalidCheckpointLine, [])
  }

  /** A descriptor without the line is left exactly as it was. */
  lemma PatchKeepsCleanDescriptor(text: seq<Byte>)
    requires forall j :: !Text.OccursAt(text, InvalidCheckpointLine, j)
    ensures PatchDescriptor(text) == text
  {
    Text.ReplaceAbsent(text, InvalidCheckpointLine, []);
  }

  /** The first occurrence of the line is cut out, the text around it is
      kept, and the rest of the text is patched in turn. */
  lemma PatchRemovesFirstLine(text: seq<Byte>, i: int)
    requires Text.OccursAt(text, InvalidCheckpointLine, i)
    requires forall j :: 0 <= j < i ==> !Text.OccursAt(text, InvalidCheckpointLine, j)
    ensures PatchDescriptor(text) ==
              text[..i] + PatchDescriptor(text[i + |InvalidCheckpointLine|..])
  {
    Text.ReplaceAtFirstOccurrence(text, InvalidCheckpointLine, [], i);
    assert text[..i] + [] == text[..i];
  }

  /** Patching twice can differ from patching once: the descriptor
      `" " + line + line[1..]` patches to `line`, which patches to nothing. */
  lemma PatchNotIdempotent()
    ensures var x := InvalidCheckpointLine[..1] + InvalidCheckpointLine + InvalidCheckpointLine[1..];
            PatchDescriptor(PatchDescriptor(x)) != PatchDescriptor(x)
  {
    assert InvalidCheckpointLine[1] == 32 && InvalidCheckpointLine[2] == 86;
    Text.RemovalNotIdempotent(InvalidCheckpointLine, 2);
  }

  /** `copy_file(fromDir / name, toDir / name)` with `name` one of the
      route's current names. */
  function CopyNamed(fs: FileSystem, route: Path, derive: string -> string, fromDir: Path, toDir: Path)
    : Result<FileSystem, IOError>
  {
    match CurrentName(fs, route, derive)
    case Err(e) => Err(e)
    case Ok(name) => CopyFile(fs, fromDir + [name], toDir + [name])
  }

  /** Read `file`, patch its text and write it back. */
  function PatchFile(fs: FileSystem, file: Path): Outcome
  {
    match ReadBytes(fs, file)
    case Err(e) => Outcome(fs, Some(e))
    case Ok(text) =>
      match WriteBytes(fs, file, PatchDescriptor(text))
      case Err(e) => Outcome(fs, Some(e))
      case Ok(fs') => Outcome(fs', None)
  }

  /** `force_snapshot_valid()`: patch the live descriptor named after the
      route's save; a missing descriptor is an error. */
  function ForceSnapshotValid(fs: FileSystem, route: Path): Outcome
  {
    match CurrentName(fs, route, SjsonName)
    case Err(e) => Outcome(fs, Some(e))
    case Ok(name) => PatchFile(fs, SavesDir + [name])
  }

  /** `load_current_snapshot()`: the route's primary file, then the
      snapshot's temp and v files, into the live save directory; then the
      descriptor patch. */
  function LoadSnapshot(fs: FileSystem, route: Path, snapshot: Path): Outcome
  {
    match CopyNamed(fs, route, s => s, route, SavesDir)
    case Err(e) => Outcome(fs, Some(e))
    case Ok(fs1) => LoadSnapshotFiles(fs1, route, snapshot)
  }

  /** The rest of `load_current_snapshot()` once the primary file is in place. */
  function LoadSnapshotFiles(fs: FileSystem, route: Path, snapshot: Path): Outcome
  {
    match CopyNamed(fs, route, TempName, snapshot, SavesDir)
    case Err(e) => Outcome(fs, Some(e))
    case Ok(fs2) => LoadSnapshotV(fs2, route, snapshot)
  }

  /** The rest of `load_current_snapshot()` once the temp file is in place. */
  function LoadSnapshotV(fs: FileSystem, route: Path, snapshot: Path): Outcome
  {
    match CopyNamed(fs, route, VName, snapshot, SavesDir)
    case Err(e) => Outcome(fs, Some(e))
    case Ok(fs3) => ForceSnapshotValid(fs3, route)
  }

  /** The filesystem part of `save_child_snapshot_as(filename)`: make
      `snapshot / filename`, then copy the live temp and v files into it.
      `filename` is one path component, so the child is one level down. */
  function SaveChild(fs: FileSystem, route: Path, snapshot: Path, filename: string): Outcome
    requires IsComponent(filename)
  {
    var child := snapshot + [filename];
    match MakeDir(fs, child)
    case Err(e) => Outcome(fs, Some(e))
    case Ok(fs1) =>
      match CopyNamed(fs1, route, TempName, SavesDir, child)
      case Err(e) => Outcome(fs1, Some(e))
      case Ok(fs2) => SaveChildV(fs2, route, snapshot, filename)
  }

  /** The rest of `save_child_snapshot_as(filename)` once the temp file is copied. */
  function SaveChildV(fs: FileSystem, route: Path, snapshot: Path, filename: string): Outcome
    requires IsComponent(filename)
  {
    match CopyNamed(fs, route, VName, SavesDir, snapshot + [filename])
    case Err(e) => Outcome(fs, Some(e))
    case Ok(fs3) => Outcome(fs3, None)
  }

  /** The result of `create_new_route()`: the filesystem, the error raised,
      if any, and the route it returns (`None` when no slot was chosen). */
  datatype Creation = Creation(fs: FileSystem, error: Option<IOError>, route: Option<Path>)

  /** `create_new_route()` with the typed slot number `choice` and the route
      name `filename` already read: make `Routes/filename` (an existing one
      is reused) and copy the chosen slot into it under its own name;
      `filename` is one path component. */
  function CreateNewRoute(fs: FileSystem, choice: int, filename: string): Creation
    requires IsComponent(filename)
  {
    match Listing.GetSaves(fs)
    case Err(e) => Creation(fs, Some(e), None)
    case Ok(saves) =>
      match Listing.PromptChoice(saves, None, choice)
      case None => Creation(fs, None, None)
      case Some(chosen) =>
        assert chosen in saves;
        CreateFromSlot(fs, chosen.path.value, filename)
  }

  /** The filesystem steps of `create_new_route()` once the slot is chosen. */
  function CreateFromSlot(fs: FileSystem, slot: Path, filename: string): Creation
    requires IsComponent(filename)
  {
    var newRoute := RoutesRoot + [filename];
    match MakeDir(fs, newRoute)
    case Err(e) => Creation(fs, Some(e), None)
    case Ok(fs1) =>
      match CopyFile(fs1, slot, newRoute + [Name(slot)])
      case Err(e) => Creation(fs1, Some(e), None)
      case Ok(fs2) => Creation(fs2, None, Some(newRoute))
  }

  /** `create_new_route()`: without a slot list, its error and nothing done;
      with a number that picks no slot, nothing done and no route; with a
      slot, `Routes/filename` is returned exactly when the directory could
      be made and the slot copied, and then the route holds the slot's
      bytes under the slot's own save name and nothing else changed. */
  lemma CreateNewRouteSpec(fs: FileSystem, choice: int, filename: string)
    requires IsComponent(filename)
    ensures Listing.GetSaves(fs).Err? ==>
              CreateNewRoute(fs, choice, filename) == Creation(fs, Some(Listing.GetSaves(fs).error), None)
    ensures Listing.GetSaves(fs).Ok? && !(1 <= choice <= |Listing.GetSaves(fs).value|) ==>
              CreateNewRoute(fs, choice, filename) == Creation(fs, None, None)
    ensures Listing.GetSaves(fs).Ok? && 1 <= choice <= |Listing.GetSaves(fs).value| ==>
              var slot := Listing.GetSaves(fs).value[choice - 1].path.value;
              && DirectlyIn(slot, SavesDir) && IsSaveName(Name(slot))
              && CreateNewRoute(fs, choice, filename) == CreateFromSlot(fs, slot, filename)
  {
    if Listing.GetSaves(fs).Ok? && 1 <= choice <= |Listing.GetSaves(fs).value| {
      var saves := Listing.GetSaves(fs).value;
      Listing.GetSavesSpec(fs);
      assert saves[choice - 1] in saves;
    }
  }

  /** Creating a route from a slot of the live save directory returns
      `Routes/filename` exactly when the directory could be made and the
      slot copied; then the route holds the slot's bytes under the slot's
      name and nothing else changed. */
  lemma CreateFromSlotSpec(fs: FileSystem, slot: Path, filename: string)
    requires IsComponent(filename)
    requires DirectlyIn(slot, SavesDir)
    ensures var newRoute := RoutesRoot + [filename];
            var target := newRoute + [Name(slot)];
            var c := CreateFromSlot(fs, slot, filename);
            && (c.route.Some? <==> c.error.None?)
            && (c.error.None? <==>
                  (IsDir(fs, newRoute) || (!IsFile(fs, newRoute) && IsDir(fs, RoutesRoot))) &&
                  IsFile(fs, slot) && !IsDir(fs, target))
            && (c.error.None? ==>
                  c.route == Some(newRoute) && IsDir(c.fs, newRoute) &&
                  ReadBytes(c.fs, target) == ReadBytes(fs, slot) &&
                  forall q :: q != newRoute && q != target ==>
                    (q in c.fs <==> q in fs) && (q in fs ==> c.fs[q] == fs[q]))
  {
    var newRoute := RoutesRoot + [filename];
    var target := newRoute + [Name(slot)];
    assert slot != newRoute && slot != target by {
      assert slot[0] == "~" && newRoute[0] == "Routes" && target[0] == "Routes";
    }
    assert Parent(newRoute) == RoutesRoot && Parent(target) == newRoute;
    MakeDirEffect(fs, newRoute);
    if MakeDir(fs, newRoute).Ok? {
      var fs1 := MakeDir(fs, newRoute).value;
      UpdateKeepsOthers(fs, newRoute, Dir, slot);
      UpdateKeepsOthers(fs, newRoute, Dir, target);
      CopyFileEffect(fs1, slot, target);
    }
  }

  /** Paths a copy may write without changing what `iterdir` of the route
      looks at: neither the route, nor one of its ancestors, nor one of its
      direct entries. */
  predicate OutsideListing(q: Path, route: Path)
  {
    !(q <= route) && !DirectlyIn(q, route)
  }

  /** The live save directory lies outside every route that is not inside it. */
  lemma LivePathOutsideListing(route: Path, name: string)
    requires !(SavesDir <= route)
    ensures OutsideListing(SavesDir + [name], route)
  {
    var q := SavesDir + [name];
    assert q <= route ==> SavesDir <= route;
    if |route| == |SavesDir| {
      assert q[..|route|] == SavesDir != route;
    }
  }

  /** Files inside a child of a snapshot of the route lie outside its listing. */
  lemma ChildPathOutsideListing(route: Path, snapshot: Path, filename: string, name: string)
    requires route <= snapshot
    ensures OutsideListing(snapshot + [filename] + [name], route)
  {
  }

  /** One `copy_file` of a file named after the route's save name: it writes
      that one file and, when the destination is outside the route's
      listing, leaves the name as it was. */
  lemma CopyStep(fs: FileSystem, route: Path, derive: string -> string, fromDir: Path, toDir: Path, n: string)
    requires CurrentSaveName(fs, route) == Ok(n)
    requires OutsideListing(toDir + [derive(n)], route)
    requires IsFile(fs, fromDir + [derive(n)]) && !IsDir(fs, toDir + [derive(n)])
    requires IsFile(fs, toDir + [derive(n)]) || IsDir(fs, toDir)
    ensures var fs' := fs[toDir + [derive(n)] := fs[fromDir + [derive(n)]]];
            CopyNamed(fs, route, derive, fromDir, toDir) == Ok(fs') &&
            CurrentSaveName(fs', route) == Ok(n)
  {
    var name := derive(n);
    assert CurrentName(fs, route, derive) == Ok(name);
    var node := fs[fromDir + [name]];
    assert Parent(toDir + [name]) == toDir;
    assert CopyFile(fs, fromDir + [name], toDir + [name]) == Ok(fs[toDir + [name] := node]);
    SameListingUpdate(fs, route, toDir + [name], node);
    CurrentNameAgree(fs, fs[toDir + [name] := node], route, derive);
  }

  /** The copy step into the live save directory. */
  lemma LiveCopyStep(fs: FileSystem, route: Path, derive: string -> string, fromDir: Path, n: string)
    requires !(SavesDir <= route)
    requires CurrentSaveName(fs, route) == Ok(n)
    requires IsFile(fs, fromDir + [derive(n)]) && !IsDir(fs, SavesDir + [derive(n)])
    requires IsFile(fs, SavesDir + [derive(n)]) || IsDir(fs, SavesDir)
    ensures var fs' := fs[SavesDir + [derive(n)] := fs[fromDir + [derive(n)]]];
            CopyNamed(fs, route, derive, fromDir, SavesDir) == Ok(fs') &&
            CurrentSaveName(fs', route) == Ok(n)
  {
    LivePathOutsideListing(route, derive(n));
    CopyStep(fs, route, derive, fromDir, SavesDir, n);
  }

  /** Patching a file succeeds exactly when it is a file, and then
      replaces its bytes by their patched form; a failure changes nothing. */
  lemma PatchFileSpec(fs: FileSystem, file: Path)
    ensures var o := PatchFile(fs, file);
            (o.error.None? <==> IsFile(fs, file)) &&
            (o.error.None? ==> o.fs == fs[file := File(PatchDescriptor(fs[file].data))] &&
                               ReadBytes(o.fs, file) == Ok(PatchDescriptor(fs[file].data))) &&
            (o.error.Some? ==> o.fs == fs)
  {
  }

  /** The three copies of `load_current_snapshot()`, when they can run. */
  lemma LoadCopies(fs: FileSystem, route: Path, snapshot: Path, n: string)
    requires !(SavesDir <= route)
    requires CurrentSaveName(fs, route) == Ok(n)
    requires CopyNamed(fs, route, s => s, route, SavesDir).Ok?
    requires IsDir(fs, SavesDir)
    requires IsFile(fs, snapshot + [TempName(n)]) && IsFile(fs, snapshot + [VName(n)])
    requires !IsDir(fs, SavesDir + [TempName(n)]) && !IsDir(fs, SavesDir + [VName(n)])
    ensures var fs3 := fs[SavesDir + [n] := fs[route + [n]]]
                         [SavesDir + [TempName(n)] := fs[snapshot + [TempName(n)]]]
                         [SavesDir + [VName(n)] := fs[snapshot + [VName(n)]]];
            CurrentSaveName(fs3, route) == Ok(n) &&
            LoadSnapshot(fs, route, snapshot) == ForceSnapshotValid(fs3, route)
  {
    CurrentSaveNameFound(fs, route);
    DerivedNamesDistinct(n);
    var L := SavesDir;
    var P, T, V := L + [n], L + [TempName(n)], L + [VName(n)];
    assert CurrentName(fs, route, s => s) == Ok(n);
    assert CopyFile(fs, route + [n], P).Ok?;
    LiveCopyStep(fs, route, s => s, route, n);
    var fs1 := fs[P := fs[route + [n]]];
    assert LoadSnapshot(fs, route, snapshot) == LoadSnapshotFiles(fs1, route, snapshot);
    JoinNamesDiffer(snapshot, TempName(n), L, n);
    JoinNamesDiffer(L, TempName(n), L, n);
    UpdateKeepsOthers(fs, P, fs[route + [n]], snapshot + [TempName(n)]);
    UpdateKeepsOthers(fs, P, fs[route + [n]], T);
    UpdateKeepsOthers(fs, P, fs[route + [n]], L);
    LiveCopyStep(fs1, route, TempName, snapshot, n);
    var fs2 := fs1[T := fs[snapshot + [TempName(n)]]];
    assert LoadSnapshotFiles(fs1, route, snapshot) == LoadSnapshotV(fs2, route, snapshot);
    JoinNamesDiffer(snapshot, VName(n), L, n);
    JoinNamesDiffer(snapshot, VName(n), L, TempName(n));
    JoinNamesDiffer(L, VName(n), L, n);
    JoinNamesDiffer(L, VName(n), L, TempName(n));
    UpdateKeepsOthers(fs, P, fs[route + [n]], snapshot + [VName(n)]);
    UpdateKeepsOthers(fs1, T, fs[snapshot + [TempName(n)]], snapshot + [VName(n)]);
    UpdateKeepsOthers(fs, P, fs[route + [n]], V);
    UpdateKeepsOthers(fs1, T, fs[snapshot + [TempName(n)]], V);
    UpdateKeepsOthers(fs1, T, fs[snapshot + [TempName(n)]], L);
    LiveCopyStep(fs2, route, VName, snapshot, n);
  }

  /** `load_current_snapshot()` when its three copies can run: the live
      directory then holds the route's primary file and the snapshot's temp
      and v files; the patch succeeds exactly when the live descriptor is a
      file, and then holds the patched text; nothing else changes. */
  lemma LoadSnapshotSpec(fs: FileSystem, route: Path, snapshot: Path)
    requires !(SavesDir <= route)
    requires CopyNamed(fs, route, s => s, route, SavesDir).Ok?
    requires IsDir(fs, SavesDir)
    ensures CurrentSaveName(fs, route).Ok?
    ensures var n := CurrentSaveName(fs, route).value;
            IsFile(fs, snapshot + [TempName(n)]) && IsFile(fs, snapshot + [VName(n)]) &&
            !IsDir(fs, SavesDir + [TempName(n)]) && !IsDir(fs, SavesDir + [VName(n)]) ==>
              var o := LoadSnapshot(fs, route, snapshot);
              && ReadBytes(o.fs, SavesDir + [n]) == ReadBytes(fs, route + [n])
              && ReadBytes(o.fs, SavesDir + [TempName(n)]) == ReadBytes(fs, snapshot + [TempName(n)])
              && ReadBytes(o.fs, SavesDir + [VName(n)]) == ReadBytes(fs, snapshot + [VName(n)])
              && (o.error.None? <==> IsFile(fs, SavesDir + [SjsonName(n)]))
              && (o.error.None? ==>
                    ReadBytes(o.fs, SavesDir + [SjsonName(n)]) ==
                    Ok(PatchDescriptor(ReadBytes(fs, SavesDir + [SjsonName(n)]).value)))
              && forall q :: q !in {SavesDir + [n], SavesDir + [TempName(n)], SavesDir + [VName(n)], SavesDir + [SjsonName(n)]} ==>
                   (q in o.fs <==> q in fs) && (q in fs ==> o.fs[q] == fs[q])
  {
    assert CurrentName(fs, route, s => s).Ok?;
    var n := CurrentSaveName(fs, route).value;
    CurrentSaveNameFound(fs, route);
    DerivedNamesDistinct(n);
    var L := SavesDir;
    var P, T, V, J := L + [n], L + [TempName(n)], L + [VName(n)], L + [SjsonName(n)];
    if IsFile(fs, snapshot + [TempName(n)]) && IsFile(fs, snapshot + [VName(n)]) && !IsDir(fs, T) && !IsDir(fs, V) {
      LoadCopies(fs, route, snapshot, n);
      var fs3 := fs[P := fs[route + [n]]][T := fs[snapshot + [TempName(n)]]][V := fs[snapshot + [VName(n)]]];
      assert CurrentName(fs3, route, SjsonName) == Ok(SjsonName(n));
      assert ForceSnapshotValid(fs3, route) == PatchFile(fs3, J);
      PatchFileSpec(fs3, J);
      JoinNamesDiffer(L, SjsonName(n), L, n);
      JoinNamesDiffer(L, SjsonName(n), L, TempName(n));
      JoinNamesDiffer(L, SjsonName(n), L, VName(n));
      JoinNamesDiffer(L, TempName(n), L, n);
      JoinNamesDiffer(L, VName(n), L, n);
      JoinNamesDiffer(L, VName(n), L, TempName(n));
      var fs1 := fs[P := fs[route + [n]]];
      var fs2 := fs1[T := fs[snapshot + [TempName(n)]]];
      UpdateKeepsOthers(fs, P, fs[route + [n]], J);
      UpdateKeepsOthers(fs1, T, fs[snapshot + [TempName(n)]], J);
      UpdateKeepsOthers(fs2, V, fs[snapshot + [VName(n)]], J);
      assert IsFile(fs3, J) == IsFile(fs, J);
      assert CurrentName(fs, route, s => s) == Ok(n);
      CopyFileEffect(fs, route + [n], P);
      assert IsFile(fs, route + [n]);
      var o := LoadSnapshot(fs, route, snapshot);
      assert o.fs == fs3 || o.fs == fs3[J := File(PatchDescriptor(fs3[J].data))];
      UpdateKeepsOthers(fs2, V, fs[snapshot + [VName(n)]], P);
      UpdateKeepsOthers(fs1, T, fs[snapshot + [TempName(n)]], P);
      UpdateKeepsOthers(fs2, V, fs[snapshot + [VName(n)]], T);
      assert fs3[P] == fs[route + [n]] && fs3[T] == fs[snapshot + [TempName(n)]];
      if o.fs != fs3 {
        UpdateKeepsOthers(fs3, J, File(PatchDescriptor(fs3[J].data)), P);
        UpdateKeepsOthers(fs3, J, File(PatchDescriptor(fs3[J].data)), T);
        UpdateKeepsOthers(fs3, J, File(PatchDescriptor(fs3[J].data)), V);
      }
      assert o.fs[P] == fs[route + [n]] && o.fs[T] == fs[snapshot + [TempName(n)]] && o.fs[V] == fs[snapshot + [VName(n)]];
      assert ReadBytes(o.fs, P) == ReadBytes(fs, route + [n]);
      assert ReadBytes(o.fs, T) == ReadBytes(fs, snapshot + [TempName(n)]);
      assert ReadBytes(o.fs, V) == ReadBytes(fs, snapshot + [VName(n)]);
      if o.error.None? {
        assert fs3[J] == fs[J];
        assert ReadBytes(o.fs, J) == Ok(PatchDescriptor(fs3[J].data));
        assert ReadBytes(fs, J).value == fs3[J].data;
      }
      forall q | q !in {P, T, V, J} ensures (q in o.fs <==> q in fs) && (q in fs ==> o.fs[q] == fs[q]) {
        assert q != P && q != T && q != V && q != J;
        UpdateKeepsOthers(fs, P, fs[route + [n]], q);
        UpdateKeepsOthers(fs1, T, fs[snapshot + [TempName(n)]], q);
        UpdateKeepsOthers(fs2, V, fs[snapshot + [VName(n)]], q);
        if o.error.None? {
          assert o.fs == fs3[J := File(PatchDescriptor(fs3[J].data))];
          UpdateKeepsOthers(fs3, J, File(PatchDescriptor(fs3[J].data)), q);
        } else {
          assert o.fs == fs3;
        }
        assert q in o.fs <==> q in fs;
      }
    }
  }

  /** `save_child_snapshot_as(filename)` on the filesystem: when it
      succeeds, the live temp and v files existed, the child directory
      exists and holds their bytes, and nothing else changed; in particular
      the primary save file is not copied into the child. */
  lemma SaveChildSpec(fs: FileSystem, route: Path, snapshot: Path, filename: string)
    requires IsComponent(filename)
    requires route <= snapshot
    ensures var child := snapshot + [filename];
            var o := SaveChild(fs, route, snapshot, filename);
            o.error.None? ==>
              && MakeDir(fs, child).Ok?
              && CurrentSaveName(MakeDir(fs, child).value, route).Ok?
              && var n := CurrentSaveName(MakeDir(fs, child).value, route).value;
                 && IsFile(fs, SavesDir + [TempName(n)]) && IsFile(fs, SavesDir + [VName(n)])
                 && IsDir(o.fs, child)
                 && CurrentSaveName(o.fs, route) == Ok(n)
                 && (IsDir(fs, SavesDir) ==> IsDir(o.fs, SavesDir))
                 && ReadBytes(o.fs, child + [TempName(n)]) == ReadBytes(fs, SavesDir + [TempName(n)])
                 && ReadBytes(o.fs, child + [VName(n)]) == ReadBytes(fs, SavesDir + [VName(n)])
                 && forall q :: q !in {child, child + [TempName(n)], child + [VName(n)]} ==>
                      (q in o.fs <==> q in fs) && (q in fs ==> o.fs[q] == fs[q])
  {
    var C := snapshot + [filename];
    var L := SavesDir;
    var o := SaveChild(fs, route, snapshot, filename);
    if o.error.None? {
      MakeDirEffect(fs, C);
      var fs1 := MakeDir(fs, C).value;
      assert CopyNamed(fs1, route, TempName, L, C).Ok?;
      assert CurrentName(fs1, route, TempName).Ok?;
      var n := CurrentSaveName(fs1, route).value;
      CurrentSaveNameFound(fs1, route);
      DerivedNamesDistinct(n);
      var T, V := TempName(n), VName(n);
      assert CopyNamed(fs1, route, TempName, L, C) == CopyFile(fs1, L + [T], C + [T]);
      CopyFileEffect(fs1, L + [T], C + [T]);
      assert Parent(C + [T]) == C;
      ChildPathOutsideListing(route, snapshot, filename, T);
      CopyStep(fs1, route, TempName, L, C, n);
      var fs2 := fs1[C + [T] := fs1[L + [T]]];
      assert SaveChild(fs, route, snapshot, filename) == SaveChildV(fs2, route, snapshot, filename);
      assert CopyNamed(fs2, route, VName, L, C) == CopyFile(fs2, L + [V], C + [V]);
      CopyFileEffect(fs2, L + [V], C + [V]);
      assert Parent(C + [V]) == C;
      ChildPathOutsideListing(route, snapshot, filename, V);
      CopyStep(fs2, route, VName, L, C, n);
      var fs3 := fs2[C + [V] := fs2[L + [V]]];
      assert o.fs == fs3;
      JoinNamesDiffer(C, V, C, T);
      JoinNamesDiffer(L, V, C, T);
      UpdateKeepsOthers(fs1, C + [T], fs1[L + [T]], L + [V]);
      UpdateKeepsOthers(fs1, C + [T], fs1[L + [T]], C);
      UpdateKeepsOthers(fs2, C + [V], fs2[L + [V]], C);
      UpdateKeepsOthers(fs2, C + [V], fs2[L + [V]], C + [T]);
      assert L + [T] != C && L + [V] != C;
      forall q | q != C ensures (q in fs1 <==> q in fs) && (q in fs ==> fs1[q] == fs[q]) && IsFile(fs1, q) == IsFile(fs, q) {
      }
      forall q | q !in {C, C + [T], C + [V]} ensures (q in o.fs <==> q in fs) && (q in fs ==> o.fs[q] == fs[q]) {
        UpdateKeepsOthers(fs1, C + [T], fs1[L + [T]], q);
        UpdateKeepsOthers(fs2, C + [V], fs2[L + [V]], q);
      }
      if IsDir(fs, L) && L != C {
        assert IsDir(fs1, L);
        UpdateKeepsOthers(fs1, C + [T], fs1[L + [T]], L);
        UpdateKeepsOthers(fs2, C + [V], fs2[L + [V]], L);
      }
    }
  }

  /** What playing the game on does to the filesystem: it changes only
      entries directly inside the live save directory, and leaves files
      there. */
  ghost predicate PlayedOn(before: FileSystem, after: FileSystem)
  {
    && (forall q :: !DirectlyIn(q, SavesDir) ==>
          (q in after <==> q in before) && (q in before ==> after[q] == before[q]))
    && (forall q :: q in after && DirectlyIn(q, SavesDir) ==> after[q].File?)
  }

  lemma EntryIsDirectlyIn(dir: Path, name: string)
    ensures DirectlyIn(dir + [name], dir)
  {
  }

  /** An entry of one directory is not directly inside another. */
  lemma EntryOfOtherDir(dir: Path, name: string, other: Path)
    requires dir != other
    ensures !DirectlyIn(dir + [name], other)
  {
    if |dir| == |other| {
      assert (dir + [name])[..|other|] == dir;
    }
  }

  /** No entry of the live save directory is a route of this kind, an
      ancestor of one or an entry of one. */
  lemma LiveEntryOutsideListing(q: Path, route: Path)
    requires !(SavesDir <= route)
    requires q <= route || DirectlyIn(q, route)
    ensures !DirectlyIn(q, SavesDir)
  {
    if |q| == |SavesDir| + 1 {
      if q <= route {
        assert q[..|SavesDir|] == route[..|SavesDir|];
      } else {
        assert q[..|route|] == route;
      }
    }
  }

  /** What playing on leaves alone, and what it leaves a file. */
  lemma PlayedOnAt(before: FileSystem, after: FileSystem, q: Path)
    requires PlayedOn(before, after)
    ensures !DirectlyIn(q, SavesDir) ==>
              IsFile(after, q) == IsFile(before, q) && IsDir(after, q) == IsDir(before, q) &&
              (q in before ==> after[q] == before[q])
    ensures DirectlyIn(q, SavesDir) ==> !IsDir(after, q)
  {
  }

  /** Playing on leaves a route's listing, and so its save name, alone. */
  lemma PlayedOnKeepsListing(before: FileSystem, after: FileSystem, route: Path)
    requires PlayedOn(before, after)
    requires !(SavesDir <= route)
    ensures SameListing(before, after, route)
  {
    forall q | q <= route || DirectlyIn(q, route)
      ensures (q in before <==> q in after) && (q in before ==> before[q] == after[q])
    {
      LiveEntryOutsideListing(q, route);
    }
  }

  /** After saving a child and playing on, the child still holds the saved
      temp and v files, the route its primary file and its save name, and
      the live directory can take the copies of a load. */
  lemma SavedChildSurvivesPlay(fs: FileSystem, route: Path, snapshot: Path, filename: string, played: FileSystem)
    requires IsComponent(filename)
    requires route <= snapshot && !(SavesDir <= route) && snapshot + [filename] != SavesDir
    requires IsDir(fs, SavesDir)
    requires SaveChild(fs, route, snapshot, filename).error.None?
    requires PlayedOn(SaveChild(fs, route, snapshot, filename).fs, played)
    requires CopyNamed(played, route, s => s, route, SavesDir).Ok?
    ensures MakeDir(fs, snapshot + [filename]).Ok?
    ensures CurrentSaveName(MakeDir(fs, snapshot + [filename]).value, route).Ok?
    ensures var n := CurrentSaveName(MakeDir(fs, snapshot + [filename]).value, route).value;
            var child := snapshot + [filename];
            && CurrentSaveName(played, route) == Ok(n)
            && IsDir(played, SavesDir)
            && IsFile(played, child + [TempName(n)]) && IsFile(played, child + [VName(n)])
            && !IsDir(played, SavesDir + [TempName(n)]) && !IsDir(played, SavesDir + [VName(n)])
            && ReadBytes(played, child + [TempName(n)]) == ReadBytes(fs, SavesDir + [TempName(n)])
            && ReadBytes(played, child + [VName(n)]) == ReadBytes(fs, SavesDir + [VName(n)])
            && ReadBytes(played, route + [n]) == ReadBytes(fs, route + [n])
  {
    var C := snapshot + [filename];
    var L := SavesDir;
    SaveChildSpec(fs, route, snapshot, filename);
    var s := SaveChild(fs, route, snapshot, filename).fs;
    var n := CurrentSaveName(MakeDir(fs, C).value, route).value;
    var T, V := TempName(n), VName(n);
    PlayedOnKeepsListing(s, played, route);
    CurrentNameAgree(s, played, route, s => s);
    EntryOfOtherDir(C, T, L);
    EntryOfOtherDir(C, V, L);
    EntryIsDirectlyIn(L, T);
    EntryIsDirectlyIn(L, V);
    PlayedOnAt(s, played, L);
    PlayedOnAt(s, played, C + [T]);
    PlayedOnAt(s, played, C + [V]);
    PlayedOnAt(s, played, L + [T]);
    PlayedOnAt(s, played, L + [V]);
    assert IsFile(s, C + [T]) && IsFile(s, C + [V]);
    assert CurrentName(played, route, s => s) == Ok(n);
    CopyFileEffect(played, route + [n], L + [n]);
    LiveEntryOutsideListing(route + [n], route);
    PlayedOnAt(s, played, route + [n]);
    assert IsFile(s, route + [n]);
    assert route + [n] !in {C, C + [T], C + [V]};
    assert route + [n] in fs && s[route + [n]] == fs[route + [n]];
  }

  /** Saving a child snapshot, playing on, and loading that child back puts
      the live temp and v files back to the bytes they had when the child
      was saved, and the live primary file back to the route's. */
  lemma SaveThenLoadRestoresLiveFiles(fs: FileSystem, route: Path, snapshot: Path, filename: string, played: FileSystem)
    requires IsComponent(filename)
    requires route <= snapshot && !(SavesDir <= route) && snapshot + [filename] != SavesDir
    requires IsDir(fs, SavesDir)
    requires SaveChild(fs, route, snapshot, filename).error.None?
    requires PlayedOn(SaveChild(fs, route, snapshot, filename).fs, played)
    requires CopyNamed(played, route, s => s, route, SavesDir).Ok?
    ensures MakeDir(fs, snapshot + [filename]).Ok?
    ensures CurrentSaveName(MakeDir(fs, snapshot + [filename]).value, route).Ok?
    ensures var n := CurrentSaveName(MakeDir(fs, snapshot + [filename]).value, route).value;
            var o := LoadSnapshot(played, route, snapshot + [filename]);
            && ReadBytes(o.fs, SavesDir + [TempName(n)]) == ReadBytes(fs, SavesDir + [TempName(n)])
            && ReadBytes(o.fs, SavesDir + [VName(n)]) == ReadBytes(fs, SavesDir + [VName(n)])
            && ReadBytes(o.fs, SavesDir + [n]) == ReadBytes(fs, route + [n])
  {
    SavedChildSurvivesPlay(fs, route, snapshot, filename, played);
    LoadSnapshotSpec(played, route, snapshot + [filename]);
  }
}

=== FILE: text.dfy ===
/** The two pieces of Python string behaviour the route manager relies on:
    the ordering `sorted` uses on `str` keys, and `str.replace`. */
module Text {

  /** Python's `a < b` on `str`: lexicographic by code point, and a proper
      prefix sorts first. */
  predicate Less(a: string, b: string)
    decreases |a|
  {
    if |a| == 0 then |b| > 0
    else if |b| == 0 then false
    else if a[0] != b[0] then a[0] < b[0]
    else Less(a[1..], b[1..])
  }

  predicate LessOrEqual(a: string, b: string)
  {
    a == b || Less(a, b)
  }

  lemma {:induction false} LessIrreflexive(a: string)
    ensures !Less(a, a)
    decreases |a|
  {
    if |a| > 0 {
      LessIrreflexive(a[1..]);
    }
  }

  lemma {:induction false} LessTrichotomy(a: string, b: string)
    ensures a == b || Less(a, b) || Less(b, a)
    decreases |a|
  {
    if |a| > 0 && |b| > 0 && a[0] == b[0] {
      LessTrichotomy(a[1..], b[1..]);
      if a[1..] == b[1..] {
        assert a == [a[0]] + a[1..] && b == [b[0]] + b[1..];
      }
    }
  }

  lemma {:induction false} LessTransitive(a: string, b: string, c: string)
    requires Less(a, b) && Less(b, c)
    ensures Less(a, c)
    decreases |a|
  {
    if |a| > 0 && a[0] == b[0] && b[0] == c[0] {
      LessTransitive(a[1..], b[1..], c[1..]);
    }
  }

  lemma LessAsymmetric(a: string, b: string)
    requires Less(a, b)
    ensures !Less(b, a)
  {
    if Less(b, a) {
      LessTransitive(a, b, a);
      LessIrreflexive(a);
    }
  }

  /** `LessOrEqual` is a total order: every fact the sorting proofs need. */
  lemma LessOrEqualTotalOrder()
    ensures forall a, b :: LessOrEqual(a, b) || LessOrEqual(b, a)
    ensures forall a, b :: LessOrEqual(a, b) && LessOrEqual(b, a) ==> a == b
    ensures forall a, b, c :: LessOrEqual(a, b) && LessOrEqual(b, c) ==> LessOrEqual(a, c)
  {
    forall a, b ensures LessOrEqual(a, b) || LessOrEqual(b, a) {
      LessTrichotomy(a, b);
    }
    forall a, b | LessOrEqual(a, b) && LessOrEqual(b, a) ensures a == b {
      if a != b { LessAsymmetric(a, b); }
    }
    forall a, b, c | LessOrEqual(a, b) && LessOrEqual(b, c) ensures LessOrEqual(a, c) {
      if a != b && b != c { LessTransitive(a, b, c); }
    }
  }

  /** `pat` occurs in `s` starting at index `i`. */
  predicate OccursAt<T(==)>(s: seq<T>, pat: seq<T>, i: int)
  {
    0 <= i && i + |pat| <= |s| && s[i..i + |pat|] == pat
  }

  lemma SliceOfTail<T>(s: seq<T>, i: int, n: int)
    requires 1 <= i && 0 <= n && i + n <= |s|
    ensures s[1..][i - 1..i - 1 + n] == s[i..i + n]
  {
  }

  /** Python's `s.replace(pat, rep)` for a non-empty `pat`: scanning from the
      left, every occurrence that does not overlap an earlier replaced one
      is replaced by `rep`. */
  function ReplaceAll<T(==)>(s: seq<T>, pat: seq<T>, rep: seq<T>): seq<T>
    requires |pat| > 0
    decreases |s|
  {
    if pat <= s then rep + ReplaceAll(s[|pat|..], pat, rep)
    else if |s| == 0 then s
    else [s[0]] + ReplaceAll(s[1..], pat, rep)
  }

  /** A text in which `pat` does not occur comes back unchanged. */
  lemma {:induction false} ReplaceAbsent<T>(s: seq<T>, pat: seq<T>, rep: seq<T>)
    requires |pat| > 0
    requires forall j :: !OccursAt(s, pat, j)
    ensures ReplaceAll(s, pat, rep) == s
    decreases |s|
  {
    if pat <= s {
      assert OccursAt(s, pat, 0);
    } else if |s| > 0 {
      forall j ensures !OccursAt(s[1..], pat, j) {
        if 0 <= j && j + |pat| <= |s| - 1 {
          SliceOfTail(s, j + 1, |pat|);
          assert !OccursAt(s, pat, j + 1);
        }
      }
      ReplaceAbsent(s[1..], pat, rep);
      assert s == [s[0]] + s[1..];
    }
  }

  /** The leftmost occurrence is replaced, the text before it is kept and the
      scan resumes after it. With `ReplaceAbsent` this pins `ReplaceAll`
      down completely. */
  lemma {:induction false} ReplaceAtFirstOccurrence<T>(s: seq<T>, pat: seq<T>, rep: seq<T>, i: int)
    requires |pat| > 0
    requires OccursAt(s, pat, i)
    requires forall j :: 0 <= j < i ==> !OccursAt(s, pat, j)
    ensures ReplaceAll(s, pat, rep) == s[..i] + rep + ReplaceAll(s[i + |pat|..], pat, rep)
    decreases i
  {
    if i == 0 {
      ReplaceAtStart(s, pat, rep);
    } else {
      assert !OccursAt(s, pat, 0);
      NoEarlierOccurrenceInTail(s, pat, i);
      ReplaceAtFirstOccurrence(s[1..], pat, rep, i - 1);
      ReplaceAfterSkip(s, pat, rep, i);
    }
  }

  /** One step of the induction above: a first element that does not start
      an occurrence is kept, and the tail's split carries over. */
  lemma ReplaceAfterSkip<T>(s: seq<T>, pat: seq<T>, rep: seq<T>, i: int)
    requires |pat| > 0 && 0 < i && i + |pat| <= |s| && !OccursAt(s, pat, 0)
    requires ReplaceAll(s[1..], pat, rep) ==
             s[1..][..i - 1] + rep + ReplaceAll(s[1..][i - 1 + |pat|..], pat, rep)
    ensures ReplaceAll(s, pat, rep) == s[..i] + rep + ReplaceAll(s[i + |pat|..], pat, rep)
  {
    ReplaceSkipsOne(s, pat, rep);
    TailSlices(s, i, |pat|);
    PrependSplit(s, i, ReplaceAll(s, pat, rep), ReplaceAll(s[1..], pat, rep), rep, ReplaceAll(s[i + |pat|..], pat, rep));
  }

  /** One unfolding of `ReplaceAll` where an occurrence starts at index 0. */
  lemma ReplaceAtStart<T>(s: seq<T>, pat: seq<T>, rep: seq<T>)
    requires |pat| > 0 && OccursAt(s, pat, 0)
    ensures ReplaceAll(s, pat, rep) == s[..0] + rep + ReplaceAll(s[|pat|..], pat, rep)
  {
    assert s[..|pat|] == s[0..|pat|];
    assert pat <= s;
    assert s[..0] + rep == rep;
  }

  /** How slices of `s[1..]` sit in `s`. */
  lemma TailSlices<T>(s: seq<T>, i: int, n: int)
    requires 0 < i && 0 <= n && i + n <= |s|
    ensures s[1..][i - 1 + n..] == s[i + n..]
    ensures s[..i] == [s[0]] + s[1..][..i - 1]
  {
  }

  /** The last step of `ReplaceAtFirstOccurrence`, on the results alone. */
  lemma PrependSplit<T>(s: seq<T>, i: int, whole: seq<T>, rest: seq<T>, rep: seq<T>, after: seq<T>)
    requires 0 < i <= |s|
    requires whole == [s[0]] + rest && rest == s[1..][..i - 1] + rep + after
    ensures whole == s[..i] + rep + after
  {
    assert s[..i] == [s[0]] + s[1..][..i - 1];
  }

  /** One unfolding of `ReplaceAll` where no occurrence starts at index 0. */
  lemma ReplaceSkipsOne<T>(s: seq<T>, pat: seq<T>, rep: seq<T>)
    requires |pat| > 0 && |s| > 0 && !OccursAt(s, pat, 0)
    ensures ReplaceAll(s, pat, rep) == [s[0]] + ReplaceAll(s[1..], pat, rep)
  {
    assert !(pat <= s) by {
      if |pat| <= |s| { assert s[..|pat|] == s[0..|pat|]; }
    }
  }

  lemma NoEarlierOccurrenceInTail<T>(s: seq<T>, pat: seq<T>, i: int)
    requires 0 < i && OccursAt(s, pat, i)
    requires forall j :: 0 <= j < i ==> !OccursAt(s, pat, j)
    ensures OccursAt(s[1..], pat, i - 1)
    ensures forall j :: 0 <= j < i - 1 ==> !OccursAt(s[1..], pat, j)
  {
    SliceOfTail(s, i, |pat|);
    forall j | 0 <= j < i - 1 ensures !OccursAt(s[1..], pat, j) {
      SliceOfTail(s, j + 1, |pat|);
      assert !OccursAt(s, pat, j + 1);
    }
  }

  /** Removing a pattern is not idempotent: a removal can splice the text on
      either side of it into a new occurrence. `k` marks two neighbouring
      elements of `pat` that differ. */
  lemma RemovalNotIdempotent<T>(pat: seq<T>, k: int)
    requires 0 < k < |pat| && pat[k - 1] != pat[k]
    ensures var x := pat[..1] + pat + pat[1..];
            ReplaceAll(ReplaceAll(x, pat, []), pat, []) != ReplaceAll(x, pat, [])
  {
    SplicedRemoval(pat, k);
    RemoveWhole(pat);
  }

  lemma SplicedRemoval<T>(pat: seq<T>, k: int)
    requires 0 < k < |pat| && pat[k - 1] != pat[k]
    ensures ReplaceAll(pat[..1] + pat + pat[1..], pat, []) == pat
  {
    var x := pat[..1] + pat + pat[1..];
    SplicedShape(pat, k);
    ReplaceAtFirstOccurrence(x, pat, [], 1);
    ReplaceAbsent(pat[1..], pat, []);
  }

  /** Where `pat` occurs in `pat[..1] + pat + pat[1..]`, and what is around it. */
  lemma SplicedShape<T>(pat: seq<T>, k: int)
    requires 0 < k < |pat| && pat[k - 1] != pat[k]
    ensures var x := pat[..1] + pat + pat[1..];
            && !OccursAt(x, pat, 0) && OccursAt(x, pat, 1)
            && x[1 + |pat|..] == pat[1..] && x[..1] + [] + pat[1..] == pat
  {
    var x := pat[..1] + pat + pat[1..];
    var n := |pat|;
    assert x[0..n][k] == x[k] == pat[k - 1];
    assert x[1..1 + n] == pat;
  }

  lemma RemoveWhole<T>(pat: seq<T>)
    requires |pat| > 0
    ensures ReplaceAll(pat, pat, []) == []
  {
    assert pat[|pat|..] == [];
  }
}

=== FILE: wrappers.dfy ===
/** Option and Result, the two failure-carrying datatypes the model uses
    for Python's `None` and for the exceptions its file operations raise. */
module Wrappers {

  datatype Option<+T> = None | Some(value: T)

  datatype Result<+T, +E> = Ok(value: T) | Err(error: E)
}
